=== FILE: README.md ===
# TooDoo in Dafny

A model of the rules at the heart of TooDoo, a Django to-do application,
with proofs of the properties its code promises. The ORM store is one
immutable value (`Models.Db`): maps from ids to records for tasks,
categories, comments, conversations and private messages; the append-only
ActivityLog and Notification tables as sequences; and one id counter from
which every new row takes its id. Dates (`DateField`) are day numbers and
instants (`DateTimeField`) are whole seconds.

The repository holds two trees of the application, `todo/` and
`TooDoo-master/`, and neither is a later version of the other throughout.
Their signals.py files differ by the assignment notifications, which only
`todo/` sends. Their views.py files differ the other way: only
`TooDoo-master/`'s has private messaging, the activity page and
owner-or-assignee dashboards, which `todo/`'s urls.py routes to but `todo/`'s
views.py lacks. The recurring-task command is modelled from `todo/`. Each tree's
views are composed with that tree's receivers.

| file | module | what it models |
|---|---|---|
| `wrappers.dfy` | `Wrappers` | `Option` |
| `models.dfy` | `Models` | records, field limits and choices, defaults, `one_week_hence`, the foreign-key delete rules |
| `master_signals.dfy` | `MasterSignals` | the four activity-log receivers of the `TooDoo-master` tree |
| `signals.dfy` | `Signals` | the `todo` tree's receivers: the same log entries plus `log_task_assignment`, both as decided and as wired |
| `queries.dfy` | `Queries` | the eight dashboard counts, with visibility as a parameter, and the list-page filters |
| `views.dfy` | `Views` | the `todo` tree's dashboard, by-category page, `mark_completed` and clear-completed |
| `master_views.dfy` | `MasterViews` | the same views of the `TooDoo-master` tree, compared with the `todo` tree's |
| `messaging.dfy` | `Messaging` | inbox, `send_message`, `message_detail`, `DeleteMessageView` |
| `forms.dfy` | `Forms` | the form field sets and the create, edit, add-category and add-comment views |
| `recurrence.dfy` | `Recurrence` | the `check_recurring_tasks` command |
| `time_filters.dfy` | `TimeFilters` | the `short_timesince` template filter |
| `text.dfy` | `Text` | ASCII case folding, `icontains`, `"%d"` and reading it back |

The model keeps these behaviours of the code as written:
- A second run of the recurring-task command on the same day clones again. No duplicate check exists (`Recurrence.RunIsNotIdempotent`).
- A "minute" interval does not advance a date. Adding one minute to a `date` leaves it unchanged.
- "minute" is matched by the command but is not a declared choice.
- An update that reassigns a task sends no notification, as wired. This is also listed under Findings.

## Model

Paths are relative to the repository root.

| member | source | states |
|---|---|---|
| Models.MinuteIsNotADeclaredInterval | todo/todo_project/models.py:31-45 | "minute" is not a declared interval code, and every priority and interval code fits the 10-character column |
| Models.DefaultColorFits | todo/todo_project/models.py:9 | the default colour `#FFFFFF` fits the 7-character colour column |
| Models.NewTask | todo/todo_project/models.py:19-30 | a task the defaults leave is not completed, not recurring and not bookmarked, with every nullable column null |
| Models.NewCategory | todo/todo_project/models.py:6-9 | a new category gets the default colour; a name of at most 50 characters makes it well formed |
| Models.OneWeekHence | todo/todo_project/models.py:13-14 | the result lies exactly seven days of seconds after now |
| Models.OneWeekHenceIsSevenDays | todo/todo_project/models.py:13-14 | one week hence falls exactly seven calendar days later, whatever the time of day |
| Models.DetachNotifications | todo/todo_project/migrations/0041_notification_task.py:14-18 | notifications pointing at deleted tasks lose the link (SET_NULL); the others are untouched and none is removed |
| Models.DetachTask | todo/todo_project/models.py:25 | links into deleted rows are nulled; links to surviving rows and every other column are kept |
| Models.CascadeComments | todo/todo_project/models.py:71 | exactly the comments posted on a deleted task go; the rest are unchanged |
| Models.DeleteTasks | todo/todo_project/models.py:71 | deleting tasks removes exactly them and their comments; the other comments keep their values; a surviving task changes only in a parent link to a deleted task, and keeps a parent link to a survivor; the notifications are the same rows with the task link nulled for the deleted tasks; users, categories, log, conversations, messages and ids are unchanged |
| Models.DeleteTaskCascadesComments | todo/todo_project/models.py:71 | deleting one task deletes a comment iff that comment is posted on it |
| Models.DeleteCategory | todo/todo_project/models.py:25 | deleting a category removes exactly it and keeps every task; tasks filed under it get a null category and nothing else changes; every other task and category keeps its value, and no other table changes |
| Models.DeleteUser | todo/todo_project/models.py:8-20 | deleting a user removes exactly their tasks and categories (CASCADE), the comments on those tasks and the comments the user wrote; surviving tasks lose only their links to removed rows, assignee included; the user leaves every conversation and their messages go; the log, the other notifications' columns and the remaining rows are unchanged |
| Models.DeleteConversation | todo/todo_project/migrations/0049_privatemessage.py:22 | deleting a conversation removes it and exactly the messages in it (CASCADE); every other conversation, message and table is unchanged |
| MasterSignals.TaskSaveAction | TooDoo-master/todo/todo_project/signals.py:8-18 | create → `task_add`; update of a completed task → `task_complete`; otherwise `task_update`; each as an if-and-only-if |
| MasterSignals.EntryFor | TooDoo-master/todo/todo_project/signals.py:7-53 | the one entry per event is attributed to the task's or category's owner, carries its id and the action kind of the event |
| MasterSignals.AppendLog | TooDoo-master/todo/todo_project/signals.py:20-25 | one row is appended; earlier rows and every other table stay |
| MasterSignals.Dispatch | TooDoo-master/todo/todo_project/signals.py:7-53 | a save or delete appends exactly its entry and creates no notification |
| MasterSignals.DispatchAll | TooDoo-master/todo/todo_project/signals.py:7-53 | a series of events appends one entry per event, in order, and changes nothing else |
| MasterSignals.DispatchAllSplits | TooDoo-master/todo/todo_project/signals.py:7-53 | dispatching a series in two parts equals dispatching it at once |
| MasterSignals.TaskDeleteEntrySurvives | TooDoo-master/todo/todo_project/signals.py:27-34 | a task delete logs a `task_delete` row with the task's id, and later events leave it in place |
| Signals.AssignmentNotices | todo/todo_project/signals.py:57-77 | on create, one notice iff an assignee is set; on update, none when the assignee is unchanged, else an "unassigned" notice to the old assignee and an "assigned" notice to the new one, when each exists |
| Signals.ReassignmentNotifiesBoth | todo/todo_project/signals.py:66-77 | moving a task from A to B notifies A once with "unassigned" and B once with "assigned" |
| Signals.CreationNeverUnassigns | todo/todo_project/signals.py:59-63 | a create never produces an "unassigned" notice |
| Signals.Notify | todo/todo_project/signals.py:63 | notifications are appended and nothing else changes |
| Signals.Dispatch | todo/todo_project/signals.py:8-77 | a save or delete appends exactly the `TooDoo-master` tree's entry; a create with an assignee appends exactly one notification, to the assignee, with the assignment message and the task's id, and every other event appends none; task rows and ids are untouched |
| Signals.DispatchAll | todo/todo_project/signals.py:8-77 | a series of events appends one entry per event, in order, appends exactly the wired notifications of its events in order (`AllWiredNotices`), and changes no other table |
| Signals.SameLogAsMasterTree | todo/todo_project/signals.py:8-54 | the `todo` tree's receivers log exactly what the `TooDoo-master` tree's log |
| Signals.WiredNotifiesOnlyOnCreate | todo/todo_project/signals.py:67-68 | as wired, only a create with an assignee adds a notification; an update adds none |
| Signals.WiredNotices | todo/todo_project/signals.py:56-62 | a created task with an assignee gives one notification, and any other event none |
| Signals.NoCreatesNoNotices | todo/todo_project/signals.py:56-77 | a series with no task create gives no notification as wired |
| Signals.DispatchReadingBefore | todo/todo_project/signals.py:66-77 | with the previous assignee read before the save, an update appends exactly the notices the decision calls for |
| Signals.WiredMissesReassignment | todo/todo_project/signals.py:67-68 | moving a task from A to B notifies nobody as wired and notifies two users when the previous assignee is read first |
| Signals.NonSavesDispatchAsMasterTree | todo/todo_project/signals.py:28-54 | deletes and category events are dispatched exactly as in the `TooDoo-master` tree |
| Queries.OpenCompletedSplit | todo/todo_project/views.py:18-21 | open plus completed visible tasks are all the visible tasks |
| Queries.DateSplit | todo/todo_project/views.py:19-20 | the open tasks split into due today or later, overdue, and undated |
| Queries.PriorityDisjoint | todo/todo_project/views.py:22-25 | two different priority codes select disjoint sets |
| Queries.RankedUnion | todo/todo_project/views.py:22-25 | the four priority sets together are the open tasks with a declared priority |
| Queries.PrioritySplit | todo/todo_project/views.py:22-25 | the four priority counts plus the unranked open tasks make up the open count |
| Queries.TaskCounts | todo/todo_project/views.py:14-26 | scheduled counts the open tasks due today or later, overdue those due before today, and each priority count the open tasks of that priority; all + completed is the number of visible tasks; scheduled + overdue + undated = all; the four priorities + unranked = all |
| Queries.DueTodayIsScheduled | todo/todo_project/views.py:19-20 | an open task due today counts as scheduled and not overdue; one due yesterday as overdue and not scheduled |
| Queries.CountsBounded | TooDoo-master/todo/todo_project/views.py:31-70 | scheduled and overdue are disjoint and together at most the open count; so are the four priority counts |
| Queries.WiderScopeCountsMore | TooDoo-master/todo/todo_project/views.py:20-72 | counting the assigned tasks too never lowers the open, completed, scheduled or overdue count |
| Queries.OwnedIds | todo/todo_project/views.py:33-36 | the owner-filtered tasks are the tasks visible with owner-only scope |
| Queries.DateListsPartition | todo/todo_project/views.py:175-194 | the scheduled and overdue pages are disjoint, together are the owner's dated tasks, completed or not, and omit undated tasks |
| Queries.CompletedList | todo/todo_project/views.py:159-162 | the completed page is the owner's completed tasks |
| Queries.BookmarkList | todo/todo_project/views.py:298-302 | an owned task is on the bookmark page iff it is bookmarked |
| Queries.SearchList | todo/todo_project/views.py:202-207 | a missing or empty query finds nothing; otherwise exactly the owner's tasks whose title contains the query, ignoring case |
| Queries.SearchFindsExactMatch | todo/todo_project/views.py:205 | a query occurring verbatim in an owned task's title finds that task |
| Queries.SearchIgnoresQueryCase | todo/todo_project/views.py:205 | folding the query's case does not change the result |
| Queries.InCategory | todo/todo_project/views.py:118 | among the given tasks, exactly those filed under the category |
| Views.DashboardCounts | todo/todo_project/views.py:14-26 | the counts cover the user's own tasks: open + completed = owned; scheduled is due ≥ today, overdue due < today, each priority count its own code; date and priority counts bounded by the open count |
| Views.TasksByCategory | todo/todo_project/views.py:113-129 | found iff the category is the user's, and then exactly the user's tasks in it |
| Views.SetCompleted | todo/todo_project/views.py:218-219 | the saved row differs from the fetched one in the completion flag only |
| Views.MarkCompletedReply | todo/todo_project/views.py:210-224 | success iff a POST names an existing task; "Invalid request" for other methods, "Task not found" otherwise |
| Views.MarkCompleted | todo/todo_project/views.py:210-224 | a success sets only that task's flag, whoever owns it, logs one entry with no notification and changes no other table; a failure changes nothing |
| Views.MarkCompletedUndo | todo/todo_project/views.py:217-221 | marking back to the previous flag restores the task table |
| Views.DeleteEvents | todo/todo_project/signals.py:28-35 | one `post_delete` event per deleted row, carrying the row as it was |
| Views.DeleteCompleted | todo/todo_project/views.py:233 | exactly the completed tasks go, with their comments; open tasks stay, changed only in a parent link to a deleted task; the other comments keep their values; notifications lose only their link to a deleted task; nothing else changes |
| Views.ClearCompleted | todo/todo_project/views.py:231-234 | every completed task of every user goes with its comments, every open task stays with parent links to survivors kept, notifications lose only their link to a deleted task, no notification is added, and one `task_delete` entry per deleted task is logged, with its id and owner |
| Views.ClearWithNothingCompleted | todo/todo_project/views.py:231-234 | with no completed task, clearing leaves the store unchanged |
| Views.ClearCompletedTwice | todo/todo_project/views.py:231-234 | clearing twice equals clearing once |
| MasterViews.DashboardCounts | TooDoo-master/todo/todo_project/views.py:20-72 | the counts cover tasks owned or assigned: open + completed = visible; scheduled is due ≥ today, overdue due < today, each priority count its own code; date and priority counts bounded by the open count |
| MasterViews.AssignedTaskCountsOnlyHere | TooDoo-master/todo/todo_project/views.py:26-29 | an open task assigned to, but not owned by, the user raises this tree's open count above the `todo` tree's |
| MasterViews.AllTaskList | TooDoo-master/todo/todo_project/views.py:196-200 | exactly the tasks the user owns or is assigned, a superset of the owned ones |
| MasterViews.CompletedPage | TooDoo-master/todo/todo_project/views.py:203-211 | as written, every task in the store, and their number |
| MasterViews.CompletedPageShowsOthersOpenTasks | TooDoo-master/todo/todo_project/views.py:203-211 | the page shows another user's open task, which the owner-scoped completed list excludes |
| MasterViews.CompletedPageCorrected | TooDoo-master/todo/todo_project/views.py:203-211 | with the `todo` tree's query (its `get_queryset`: own tasks, `completed=True`), the user's completed tasks and their number, a subset of the page as written |
| MasterViews.TasksByCategory | TooDoo-master/todo/todo_project/views.py:169-182 | found iff the category exists, whoever owns it, and then every task filed under it |
| MasterViews.ByCategoryNarrowedInTodoTree | TooDoo-master/todo/todo_project/views.py:169-182 | for the category's owner, the `todo` tree's page is this page restricted to the owner's tasks |
| MasterViews.MarkCompleted | TooDoo-master/todo/todo_project/views.py:254-268 | the same reply and flag write as the `todo` tree, logged by this tree's receiver as one entry attributed to the task's owner; no other table changes |
| MasterViews.MarkCompletedSameInBothTrees | TooDoo-master/todo/todo_project/views.py:254-268 | both trees give the same reply and leave the same store |
| MasterViews.ClearCompleted | TooDoo-master/todo/todo_project/views.py:275-278 | every completed task goes regardless of owner, with its comments; open tasks stay with parent links to survivors kept; notifications lose only their link to a deleted task; one `task_delete` entry per deletion, attributed to the task's owner |
| MasterViews.ClearCompletedSameInBothTrees | TooDoo-master/todo/todo_project/views.py:275-278 | both trees leave the same store |
| Messaging.Least | TooDoo-master/todo/todo_project/views.py:375 | `first()` picks a member of the set no larger than any other |
| Messaging.Inbox | TooDoo-master/todo/todo_project/views.py:353-359 | exactly the conversations the user takes part in |
| Messaging.Shared | TooDoo-master/todo/todo_project/views.py:367-371 | the chained filter gives the conversations in both users' inboxes |
| Messaging.FindOrCreate | TooDoo-master/todo/todo_project/views.py:366-380 | afterwards a conversation includes both users; an existing shared one is reused (the lowest id) with nothing created, otherwise a new one with exactly the two participants is added |
| Messaging.FindOrCreateSymmetric | TooDoo-master/todo/todo_project/views.py:367-371 | swapping sender and recipient gives the same conversation and store |
| Messaging.Posted | TooDoo-master/todo/todo_project/views.py:384-388 | one message is added under a fresh id, with the requesting user as sender |
| Messaging.SendMessage | TooDoo-master/todo/todo_project/views.py:362-396 | 404 for an unknown recipient; a message is stored iff the recipient exists and the form validates; the conversation is the one find-or-create gives (a new one has exactly the two users), whether or not the form validates; tasks, categories, comments, log and notifications are unchanged |
| Messaging.SecondSendReuses | TooDoo-master/todo/todo_project/views.py:366-380 | after one send, later sends in either direction use the same conversation and create none |
| Messaging.MessageDetail | TooDoo-master/todo/todo_project/views.py:399-426 | 404 for a missing conversation; a non-participant is redirected to the inbox and nothing is stored; the store changes iff a participant posts a valid form |
| Messaging.MessageDetailKeepsSendersParticipants | TooDoo-master/todo/todo_project/views.py:405-418 | if every message's sender takes part in its conversation, that stays true |
| Messaging.DeleteConversationRequest | TooDoo-master/todo/todo_project/views.py:429-441 | an unknown id is an uncaught error; a non-participant is refused; the conversation is deleted, with its messages, iff a participant posts, and nothing else changes |
| Messaging.DeleteConversationKeepsSendersParticipants | TooDoo-master/todo/todo_project/views.py:429-441 | deleting keeps every remaining message's sender a participant of its conversation, and the deleted conversation is in no one's inbox |
| Messaging.SelfMessageLandsInSharedConversation | TooDoo-master/todo/todo_project/views.py:366-375 | a user messaging themselves posts into a conversation another user reads |
| Messaging.Exact | TooDoo-master/todo/todo_project/views.py:366 | the conversations of exactly the two users, a subset of the shared ones |
| Messaging.FindOrCreateExact | TooDoo-master/todo/todo_project/views.py:366-380 | the conversation found or created has exactly the two users as participants |
| Messaging.ExactAgreesForTwoUsers | TooDoo-master/todo/todo_project/views.py:366-380 | for two distinct users, with no conversation above two participants, both lookups give the same result |
| Forms.TaskIsItsTwoFieldSets | todo/todo_project/forms.py:8 | a task is determined by its edit-form columns together with the rest |
| Forms.ApplyEdit | todo/todo_project/forms.py:5-8 | an edit writes the form's seven columns and leaves every other column as it was |
| Forms.ApplyEditLaws | todo/todo_project/forms.py:8 | submitting a task's own values changes nothing; of two edits only the last shows |
| Forms.EditKeepsWellFormed | todo/todo_project/models.py:21-45 | a valid edit keeps the title limit and choice lists |
| Forms.CategoryChoices | todo/todo_project/forms.py:34-41 | with a user, exactly that user's categories; without one, every category |
| Forms.CategoryChoicesNarrow | todo/todo_project/forms.py:38-41 | restricting to a user never adds a choice, and removes one iff some category belongs to someone else |
| Forms.ApplyCreate | todo/todo_project/forms.py:20-24 | a create sets the five form columns and leaves every other column at its default |
| Forms.CreateThenEditSameValues | todo/todo_project/forms.py:8-24 | the create fields are among the edit fields: re-editing a new task with its values changes nothing |
| Forms.CreateIsWellFormed | todo/todo_project/forms.py:20-24 | a valid create gives a well-formed, open, non-recurring task |
| Forms.ApplyCategory | todo/todo_project/forms.py:59-62 | a category gets the submitted name and colour, or the default colour when the field is omitted |
| Forms.CategoryIsWellFormed | todo/todo_project/models.py:6-9 | a valid category form gives a category within the column limits |
| Forms.CreateTask | todo/todo_project/views.py:43-58 | stored iff the form validates against the user's categories; the new task is the user's, under a fresh id, logged `task_add` by the user, with no notification; no other table changes; an invalid form changes nothing |
| Forms.EditTask | todo/todo_project/views.py:61-74 | not found iff the task is missing or not the user's; stored iff it is the user's and the form validates; only that task changes; logs `task_complete` or `task_update` by the user; no other table changes |
| Forms.EditKeepsOwnerAndRecurrence | todo/todo_project/forms.py:8 | whatever is submitted, an edit keeps owner, assignee, recurrence, file and parent |
| Forms.AddCategory | todo/todo_project/views.py:97-105 | stored iff valid; the new category is the user's, under a fresh id, well formed and logged `category_add`; no other table changes; an invalid form changes nothing |
| Forms.AddedCategoryIsOffered | todo/todo_project/forms.py:34-41 | a category the user adds is offered by the user's task forms next to the earlier ones, and the other users' choices do not change |
| Forms.AddComment | todo/todo_project/views.py:237-252 | 404 iff the task is missing; otherwise one comment with the body, on that task, with no author |
| Forms.CommentGoesWithItsTask | todo/todo_project/models.py:71 | a comment added to a task goes when the task is deleted |
| Recurrence.StepDays | todo/todo_project/management/commands/check_recurring_tasks.py:20-27 | minute 0 days, daily 1, weekly 7, monthly 30; no step iff the code is none of these |
| Recurrence.NextDue | todo/todo_project/management/commands/check_recurring_tasks.py:20-27 | the due date plus the step, or the value carried from the previous iteration when the interval is unrecognised |
| Recurrence.Expand | todo/todo_project/management/commands/check_recurring_tasks.py:16-29 | no due date is a skip; no next due date aborts (unbound name); a null start bound aborts; a next due date before the start is a skip; a null end bound reached after the start test aborts; with both bounds set nothing aborts and a clone is made iff the next due date lies inside the window; a clone's due date lies inside a non-null window |
| Recurrence.NullStartAbortsRun | todo/todo_project/management/commands/check_recurring_tasks.py:29 | a template with a due date, a recognised interval and a null start stops the loop with no clone for it or any later template |
| Recurrence.CloneIffInWindow | todo/todo_project/management/commands/check_recurring_tasks.py:29 | a configured template yields a clone iff start ≤ next due ≤ end, due on the next due date |
| Recurrence.UnrecognisedIntervalUsesStaleDate | todo/todo_project/management/commands/check_recurring_tasks.py:20-29 | an unrecognised interval aborts when nothing was computed before and otherwise tests the stale date |
| Recurrence.MakeClone | todo/todo_project/management/commands/check_recurring_tasks.py:30-42 | a clone copies owner, title, description, assignee, category, priority, file and bookmark; it is due on the new date, recurring, linked to its template, with no window, so it is never selected |
| Recurrence.RunFrom | todo/todo_project/management/commands/check_recurring_tasks.py:16-42 | the loop never changes an existing row, and every id it reports is in the table |
| Recurrence.RunFromAddsFreshIds | todo/todo_project/management/commands/check_recurring_tasks.py:30-42 | the rows added are exactly the reported ids, all new, in increasing order |
| Recurrence.RunFromAddsClones | todo/todo_project/management/commands/check_recurring_tasks.py:16-42 | every added row is a clone, made today, of an iterated template |
| Recurrence.CloneEvents | todo/todo_project/management/commands/check_recurring_tasks.py:30-42 | one create event per clone, in creation order |
| Recurrence.Loop | todo/todo_project/management/commands/check_recurring_tasks.py:16-42 | the table after the loop holds the old rows and the reported ones |
| Recurrence.Run | todo/todo_project/management/commands/check_recurring_tasks.py:9-44 | a run touches only tasks, ids, log and notifications, adds exactly the reported rows, and appends exactly one assignment notification per clone that has an assignee, in creation order |
| Recurrence.CloneNoticesExactly | todo/todo_project/management/commands/check_recurring_tasks.py:29-41 | the run's notifications name exactly the clones that have an assignee, each with its assignee |
| Recurrence.CloneEventsNotify | todo/todo_project/signals.py:56-62 | the saves of the clones give, as wired, exactly one assignment notification per clone with an assignee |
| Recurrence.RunUnfolds | todo/todo_project/management/commands/check_recurring_tasks.py:9-44 | a run is the loop's rows plus one receiver entry per clone |
| Recurrence.RunAddsOnlyClones | todo/todo_project/management/commands/check_recurring_tasks.py:16-42 | templates are never modified; added rows are new, distinct clones of selected templates |
| Recurrence.RunLogsEachClone | todo/todo_project/management/commands/check_recurring_tasks.py:30-42 | each clone is logged as `task_add` with its id, in creation order, after the earlier entries |
| Recurrence.Qualifying | todo/todo_project/management/commands/check_recurring_tasks.py:16-29 | the templates with a due date whose next due date is in the window, in iteration order |
| Recurrence.ExpectedClones | todo/todo_project/management/commands/check_recurring_tasks.py:29-42 | the clone each qualifying template calls for |
| Recurrence.RunClonesExactlyQualifying | todo/todo_project/management/commands/check_recurring_tasks.py:16-42 | with configured templates the loop never aborts and adds exactly the expected clones, in order |
| Recurrence.RunKeepsSelection | todo/todo_project/management/commands/check_recurring_tasks.py:11-14 | a run leaves the selected templates unchanged, on any day: clones are never selected |
| Recurrence.LoopGrowsByCreated | todo/todo_project/management/commands/check_recurring_tasks.py:30-42 | the table grows by exactly the number of clones |
| Recurrence.LoopClonesEachQualifyingTemplate | todo/todo_project/management/commands/check_recurring_tasks.py:16-42 | the loop makes one clone per qualifying template, due on its next due date |
| Recurrence.RunClonesEachQualifyingTemplate | todo/todo_project/management/commands/check_recurring_tasks.py:16-42 | with configured templates a run never aborts and adds one clone per qualifying template, due on its next due date |
| Recurrence.RunKeepsTemplates | todo/todo_project/management/commands/check_recurring_tasks.py:11-14 | after a run the same order is valid again and the templates are unchanged |
| Recurrence.RunIsNotIdempotent | todo/todo_project/management/commands/check_recurring_tasks.py:30 | a second run on the same day makes as many clones again, each identical to one from the first run |
| Recurrence.QualifyingDependsOnTemplatesOnly | todo/todo_project/management/commands/check_recurring_tasks.py:11-29 | which templates qualify depends only on the templates themselves |
| TimeFilters.Bucket | TooDoo-master/todo/todo_project/templatetags/time_filters.py:26-33 | each bucket holds exactly its range of seconds; the number is the whole count of the unit; minutes are 1..59, hours 1..23, days at least 1 |
| TimeFilters.ShortTimesince | TooDoo-master/todo/todo_project/templatetags/time_filters.py:8-33 | "" iff the value is not a datetime; otherwise the formatted bucket of the difference |
| TimeFilters.FormatRoundTrip | TooDoo-master/todo/todo_project/templatetags/time_filters.py:26-33 | the text reads back as its number and unit |
| TimeFilters.ShortTimesinceShowsItsReading | TooDoo-master/todo/todo_project/templatetags/time_filters.py:19-33 | what the filter shows determines the bucket of the difference |
| TimeFilters.FutureShowsNegativeSeconds | TooDoo-master/todo/todo_project/templatetags/time_filters.py:26-27 | a future datetime shows a negative number of seconds |
| TimeFilters.BucketMonotone | TooDoo-master/todo/todo_project/templatetags/time_filters.py:26-33 | a later difference never shows a finer unit, nor, within a unit, a smaller number |
| Text.Lower | todo/todo_project/views.py:205 | folding keeps the length and folds each character |
| Text.ContainsImpliesIgnoreCase | todo/todo_project/views.py:205 | an exact occurrence is a case-insensitive one |
| Text.IgnoreCaseOfFoldedPattern | todo/todo_project/views.py:205 | case-insensitive containment does not depend on the pattern's case |
| Text.IntToString | TooDoo-master/todo/todo_project/templatetags/time_filters.py:27 | `"%d"` is non-empty and starts with a minus sign iff the number is negative |
| Text.NatToStringRoundTrip | TooDoo-master/todo/todo_project/templatetags/time_filters.py:27 | the digits of a natural number denote that number |
| Text.IntToStringRoundTrip | TooDoo-master/todo/todo_project/templatetags/time_filters.py:27 | `"%d"` read back gives the number |

## Left out

- Chat consumers and routing (`todo/chat/`): asynchronous WebSocket code over Django Channels. Their one sequential fact, that a message is stored before it is broadcast, is not modelled.
- `script.js`, the members app, URL configuration, admin, app config and context processors: UI, authentication and wiring.
- Migrations: used only for field facts, which are the notification link's SET_NULL, the message content and its conversation's CASCADE.
- The models file does not define every record the code uses:
  - its `Task` lacks `assigned_to`, `parent_task` and `recurring_start_date`;
  - ActivityLog, Notification and Conversation are not in it. Conversation is taken to declare no `Meta.ordering`, so `first()` on the lookup's unordered queryset orders by primary key and returns the lowest id (`Messaging.Least`).
  Their fields are taken from the code that uses them.
- `parent_task`'s delete rule is not defined in any source file; it is modelled as SET_NULL.
- Models.DeleteUser: `assigned_to`'s delete rule is not defined in any source file either; it is modelled as SET_NULL, so a surviving task assigned to the deleted user is left unassigned.
- Models.DeleteUser: the delete rules of the `user` columns of ActivityLog and Notification are not in any source file; their rows are kept as they are, with only the notifications' task link nulled for the deleted tasks.
- Models.DeleteUser: the store write only. The `post_delete` receivers of either tree would log a `task_delete` or `category_delete` entry for each cascaded task and category; a user deletion composed with them is not modelled.
- `MessageForm` is not part of this model. The message form is given as its cleaned content, or as invalid.
- Template rendering, redirects other than their targets, JSON body parsing, file uploads, `Profile` and the login requirement: request plumbing.
- Form cleaning is taken as done. Whitespace stripping, widget parsing and date parsing are not modelled. The recipient of `send_message` is given as a user id, or as none when no user has the name.
- Views.MarkCompleted: the model takes `completed` as a boolean. The view assigns the raw JSON value and saves it. `BooleanField` converts true/false, 0/1 and the strings "t", "f", "True", "False", "1" and "0" to a boolean, and raises `ValidationError` on any other value. A missing key gives `None`, which fails the NOT NULL column with `IntegrityError`. The `except Task.DoesNotExist` catches neither error, so such a request ends in a server error. The log receiver tests the unconverted value, so a string such as "False" is stored as false but logged as `task_complete` by its truthiness. Neither the raising path nor the truthiness logging is modelled.
- Timestamps: a task's `created_at` (`auto_now_add`) is modelled as the day `today` the row is created; one `today` stands for both `date.today()` at a save and the recurring-task command's `timezone.now().date()`, so the two are taken to fall on the same day. The other timestamps are not modelled: `date_added`, the ActivityLog timestamp and message ordering by `created_at`. So `RecentActivityView` is left out.
- Comment `name`, and the `user` column of `Notification` beyond its value.
- `short_timesince`:
  - time-zone handling is not modelled;
  - elapsed time is whole seconds rather than the float `total_seconds()`, so the truncation `"%d"` applies to a fractional negative difference is not modelled.
- Case folding covers ASCII letters only. Django's `icontains` folds other letters too.
- The order in which the database iterates the recurring templates and the deleted rows is a parameter. Both are unordered querysets.
- `TaskDeleteView` and `CategoryDeleteView`: the model has the delete rules they trigger (`Models.DeleteTasks`, `Models.DeleteCategory`), not the views.
- Recurrence.RunClonesEachQualifyingTemplate: states the clones only for templates the loop body can evaluate without an error. Aborts and stale intervals are stated separately: the unbound-name and null-bound aborts by `Recurrence.Expand` and `Recurrence.NullStartAbortsRun`, the stale interval by `Recurrence.UnrecognisedIntervalUsesStaleDate`.

## Findings

| source | as written | input that shows it | evidently intended | confidence | as-written member | corrected member |
|---|---|---|---|---|---|---|
| TooDoo-master/todo/todo_project/views.py:203-211 | `CompletedTaskListView` defines no `get_queryset`, so it lists, and counts, every task in the store | user 2 opens the page while user 1 has an open task 0 | the user's own completed tasks: the page is the completed-task list, and the same view in todo/todo_project/views.py:159-162 filters on the user and `completed=True` | high; not executed | MasterViews.CompletedPageShowsOthersOpenTasks | MasterViews.CompletedPageCorrected |
| todo/todo_project/signals.py:67-68 | the "previous" assignee is re-read inside `post_save`, after the row is written, so it always equals the new one | task 0 assigned to user 1 is saved with user 2 as assignee | user 1 gets "unassigned", user 2 gets "assigned" | high; not executed | Signals.WiredMissesReassignment | Signals.DispatchReadingBefore |
| TooDoo-master/todo/todo_project/views.py:366-375 | the conversation is looked up as any conversation that includes both users | user 1 messages themselves while sharing conversation 0 with user 2 | the conversation of exactly the two users, as the comment on line 366 says | medium; not executed | Messaging.SelfMessageLandsInSharedConversation | Messaging.FindOrCreateExact |

=== FILE: forms.dfy ===
/** The model forms of the `todo` tree (todo/todo_project/forms.py) and
    the views that save them (todo/todo_project/views.py). A form's field
    list decides which columns a request can set: an edit writes seven
    columns of an existing task, a create five columns of a new one, the
    category form a name and a colour, the comment form a body. Every other
    column keeps its value or its model default.

    Form input is given as the cleaned value of each field (the widgets,
    HTML parsing and whitespace stripping are not modelled); validation
    checks the length limits, the choice lists and the category choices. */
module Forms {
  import opened Wrappers
  import opened Models
  import MasterSignals
  import Signals

  // ---------------------------------------------------------------------
  // EditForm

  /** The seven fields of `EditForm`. */
  datatype EditInput = EditInput(
    title: string,
    dueDate: Option<Day>,
    category: Option<CategoryId>,
    description: string,
    completed: bool,
    priority: Option<string>,
    bookmarked: bool)

  /** The columns `EditForm` does not list. */
  datatype NotEdited = NotEdited(
    owner: UserId,
    assignee: Option<UserId>,
    createdAt: Day,
    recurring: bool,
    recurringInterval: Option<string>,
    recurringStartDate: Option<Day>,
    recurringEndDate: Option<Day>,
    file: Option<string>,
    parentTask: Option<TaskId>)

  /** The values an edit form of `t` starts from. */
  function EditFields(t: Task): EditInput
  {
    EditInput(t.title, t.dueDate, t.category, t.description, t.completed, t.priority, t.bookmarked)
  }

  function NotEditedFields(t: Task): NotEdited
  {
    NotEdited(t.owner, t.assignee, t.createdAt, t.recurring, t.recurringInterval,
              t.recurringStartDate, t.recurringEndDate, t.file, t.parentTask)
  }

  /** A task is fully described by its edited and its other columns. */
  lemma TaskIsItsTwoFieldSets(t1: Task, t2: Task)
    ensures t1 == t2 <==> EditFields(t1) == EditFields(t2) && NotEditedFields(t1) == NotEditedFields(t2)
  {
  }

  /** What saving a valid `EditForm` does to the task: the form's seven
      values are written, every other column is left as it was. */
  function ApplyEdit(t: Task, e: EditInput): (r: Task)
    ensures EditFields(r) == e
    ensures NotEditedFields(r) == NotEditedFields(t)
  {
    Task(t.owner, t.assignee, e.title, e.description, e.completed, t.createdAt, e.category, e.dueDate,
         t.recurring, t.recurringInterval, t.recurringStartDate, t.recurringEndDate, t.file,
         e.bookmarked, e.priority, t.parentTask)
  }

  /** Submitting the form unchanged leaves the task as it was, and of two
      edits only the last one shows. */
  lemma ApplyEditLaws(t: Task, e1: EditInput, e2: EditInput)
    ensures ApplyEdit(t, EditFields(t)) == t
    ensures ApplyEdit(ApplyEdit(t, e1), e2) == ApplyEdit(t, e2)
  {
    TaskIsItsTwoFieldSets(ApplyEdit(t, EditFields(t)), t);
    TaskIsItsTwoFieldSets(ApplyEdit(ApplyEdit(t, e1), e2), ApplyEdit(t, e2));
  }

  /** Whether a title validates: required, at most 100 characters. */
  predicate ValidTitle(title: string)
  {
    0 < |title| <= TitleMaxLength
  }

  /** Whether an edit validates against the category choices offered. */
  predicate ValidEdit(e: EditInput, categories: set<CategoryId>)
  {
    && ValidTitle(e.title)
    && ValidChoice(e.priority, PriorityChoices)
    && (e.category.None? || e.category.value in categories)
  }

  /** A valid edit keeps a well-formed task well formed. */
  lemma EditKeepsWellFormed(t: Task, e: EditInput, categories: set<CategoryId>)
    requires WellFormedTask(t) && ValidEdit(e, categories)
    ensures WellFormedTask(ApplyEdit(t, e))
  {
  }

  // ---------------------------------------------------------------------
  // CreateForm

  /** The five fields of `CreateForm`. */
  datatype CreateInput = CreateInput(
    title: string,
    dueDate: Option<Day>,
    category: Option<CategoryId>,
    description: string,
    priority: Option<string>)

  /** The category choices of `CreateForm`: the given user's categories,
      every category when no user is given. */
  function CategoryChoices(db: Db, user: Option<UserId>): (r: set<CategoryId>)
    ensures user.Some? ==> forall c :: c in r <==> c in db.categories && db.categories[c].user == user.value
    ensures user.None? ==> r == db.categories.Keys
  {
    if user.Some? then OwnedCategories(db, user.value) else db.categories.Keys
  }

  /** Restricting to a user never adds a choice. */
  lemma CategoryChoicesNarrow(db: Db, u: UserId)
    ensures CategoryChoices(db, Some(u)) <= CategoryChoices(db, None)
    ensures CategoryChoices(db, Some(u)) == CategoryChoices(db, None) <==>
      forall c :: c in db.categories ==> db.categories[c].user == u
  {
  }

  predicate ValidCreate(c: CreateInput, categories: set<CategoryId>)
  {
    && ValidTitle(c.title)
    && ValidChoice(c.priority, PriorityChoices)
    && (c.category.None? || c.category.value in categories)
  }

  /** The task a valid `CreateForm` saves for `owner`: the five submitted
      values, and the model default in every other column. */
  function ApplyCreate(owner: UserId, today: Day, c: CreateInput): (t: Task)
    ensures t.title == c.title && t.dueDate == c.dueDate && t.category == c.category
    ensures t.description == c.description && t.priority == c.priority
    ensures t.(dueDate := None, category := None, description := "", priority := None)
      == NewTask(owner, c.title, today)
  {
    NewTask(owner, c.title, today).(dueDate := c.dueDate, category := c.category,
                                    description := c.description, priority := c.priority)
  }

  /** A created task, edited with its own values plus the two flags the
      edit form adds, is the created task: the create fields are a subset
      of the edit fields. */
  lemma CreateThenEditSameValues(owner: UserId, today: Day, c: CreateInput)
    ensures var t := ApplyCreate(owner, today, c);
      ApplyEdit(t, EditInput(c.title, c.dueDate, c.category, c.description, false, c.priority, false)) == t
  {
    var t := ApplyCreate(owner, today, c);
    TaskIsItsTwoFieldSets(ApplyEdit(t, EditInput(c.title, c.dueDate, c.category, c.description, false, c.priority, false)), t);
  }

  lemma CreateIsWellFormed(owner: UserId, today: Day, c: CreateInput, categories: set<CategoryId>)
    requires ValidCreate(c, categories)
    ensures WellFormedTask(ApplyCreate(owner, today, c))
    ensures !ApplyCreate(owner, today, c).completed && !ApplyCreate(owner, today, c).recurring
  {
  }

  // ---------------------------------------------------------------------
  // AddCategoryForm and CommentForm

  /** The fields of `AddCategoryForm`; `color` is `None` when the request
      leaves the field out, which keeps the model default. */
  datatype CategoryInput = CategoryInput(name: string, color: Option<string>)

  predicate ValidCategory(c: CategoryInput)
  {
    0 < |c.name| <= CategoryNameMaxLength && (c.color.None? || |c.color.value| <= ColorMaxLength)
  }

  /** The category a valid `AddCategoryForm` saves for `user`. An omitted
      colour is the default; a submitted empty one stays empty. */
  function ApplyCategory(user: UserId, c: CategoryInput): (r: Category)
    ensures r.user == user && r.name == c.name
    ensures r.color == (if c.color.Some? then c.color.value else DefaultColor)
    ensures c.color.None? ==> r == NewCategory(user, c.name)
  {
    Category(c.name, user, if c.color.Some? then c.color.value else DefaultColor)
  }

  lemma CategoryIsWellFormed(user: UserId, c: CategoryInput)
    requires ValidCategory(c)
    ensures WellFormedCategory(ApplyCategory(user, c))
  {
    DefaultColorFits();
  }

  // ---------------------------------------------------------------------
  // The views that save the forms

  /** How a form view ends: the id of the row saved, the form shown again
      with its errors, or 404. */
  datatype Result = Stored(id: nat) | Invalid | NotFound

  datatype Outcome = Outcome(result: Result, db: Db)

  /** The store with `t` added under the next id. */
  function AddTask(db: Db, t: Task): (r: Db)
    ensures r.tasks == db.tasks[db.nextId := t] && r.nextId == db.nextId + 1
    ensures r.(tasks := db.tasks, nextId := db.nextId) == db
  {
    Db(db.users, db.categories, db.tasks[db.nextId := t], db.comments, db.log, db.notifications,
       db.conversations, db.messages, db.nextId + 1)
  }

  /** `TaskCreateView`: a valid form whose category is one of the user's
      saves a new task owned by the user; `post_save` logs `task_add`,
      and no notification goes out, since a created task has no assignee. */
  function CreateTask(db: Db, u: UserId, today: Day, c: CreateInput): (r: Outcome)
    requires FreshAbove(db)
    ensures r.result.Stored? <==> ValidCreate(c, CategoryChoices(db, Some(u)))
    ensures !r.result.Stored? ==> r == Outcome(Invalid, db)
    ensures r.result.Stored? ==>
      var id := r.result.id;
      && id !in db.tasks
      && r.db.tasks == db.tasks[id := ApplyCreate(u, today, c)]
      && r.db.tasks[id].owner == u
      && |r.db.log| == |db.log| + 1 && r.db.log[..|db.log|] == db.log
      && r.db.log[|db.log|].action == TaskAdd && r.db.log[|db.log|].objectId == id
      && r.db.log[|db.log|].user == u
      && r.db.notifications == db.notifications
      && r.db.categories == db.categories && r.db.comments == db.comments
      && r.db.(tasks := db.tasks, log := db.log, nextId := db.nextId) == db
    ensures FreshAbove(r.db)
  {
    if !ValidCreate(c, CategoryChoices(db, Some(u))) then Outcome(Invalid, db)
    else
      var id := db.nextId;
      var t := ApplyCreate(u, today, c);
      var written := AddTask(db, t);
      var ev := MasterSignals.TaskSaved(id, t, true);
      Signals.WiredNotifiesOnlyOnCreate(written, ev);
      Outcome(Stored(id), Signals.Dispatch(written, ev))
  }

  /** `TaskUpdateView`: only the owner's tasks are found, the category
      choices are the user's own, and a valid form writes its seven
      columns; `post_save` logs `task_complete` or `task_update`, and as
      wired the assignment receiver notifies no one. */
  function EditTask(db: Db, u: UserId, id: TaskId, e: EditInput): (r: Outcome)
    ensures r.result == NotFound <==> id !in db.tasks || db.tasks[id].owner != u
    ensures r.result.Stored? <==>
      id in db.tasks && db.tasks[id].owner == u && ValidEdit(e, CategoryChoices(db, Some(u)))
    ensures !r.result.Stored? ==> r.db == db
    ensures r.result.Stored? ==>
      && r.result.id == id
      && r.db.tasks == db.tasks[id := ApplyEdit(db.tasks[id], e)]
      && |r.db.log| == |db.log| + 1 && r.db.log[..|db.log|] == db.log
      && r.db.log[|db.log|].action == (if e.completed then TaskComplete else TaskUpdate)
      && r.db.log[|db.log|].objectId == id && r.db.log[|db.log|].user == u
      && r.db.notifications == db.notifications
      && r.db.nextId == db.nextId && r.db.comments == db.comments
      && r.db.(tasks := db.tasks, log := db.log) == db
  {
    if id !in db.tasks || db.tasks[id].owner != u then Outcome(NotFound, db)
    else if !ValidEdit(e, CategoryChoices(db, Some(u))) then Outcome(Invalid, db)
    else
      var t := ApplyEdit(db.tasks[id], e);
      var written := Db(db.users, db.categories, db.tasks[id := t], db.comments, db.log, db.notifications,
                        db.conversations, db.messages, db.nextId);
      var ev := MasterSignals.TaskSaved(id, t, false);
      Signals.WiredNotifiesOnlyOnCreate(written, ev);
      Outcome(Stored(id), Signals.Dispatch(written, ev))
  }

  /** Editing a task never changes who owns it or what its recurrence
      settings are, whatever is submitted. */
  lemma EditKeepsOwnerAndRecurrence(db: Db, u: UserId, id: TaskId, e: EditInput)
    requires id in db.tasks
    ensures var r := EditTask(db, u, id, e);
      && r.db.tasks.Keys == db.tasks.Keys
      && NotEditedFields(r.db.tasks[id]) == NotEditedFields(db.tasks[id])
  {
  }

  /** `AddCategoryView`: a valid form saves a category owned by the user;
      `post_save` logs `category_add`. */
  function AddCategory(db: Db, u: UserId, c: CategoryInput): (r: Outcome)
    requires FreshAbove(db)
    ensures r.result.Stored? <==> ValidCategory(c)
    ensures !r.result.Stored? ==> r == Outcome(Invalid, db)
    ensures r.result.Stored? ==>
      var id := r.result.id;
      && id !in db.categories
      && r.db.categories == db.categories[id := ApplyCategory(u, c)]
      && |r.db.log| == |db.log| + 1 && r.db.log[..|db.log|] == db.log
      && r.db.log[|db.log|].action == CategoryAdd && r.db.log[|db.log|].objectId == id
      && r.db.log[|db.log|].user == u
      && r.db.tasks == db.tasks && r.db.notifications == db.notifications
      && WellFormedCategory(r.db.categories[id])
      && r.db.(categories := db.categories, log := db.log, nextId := db.nextId) == db
    ensures FreshAbove(r.db)
  {
    if !ValidCategory(c) then Outcome(Invalid, db)
    else
      var id := db.nextId;
      var cat := ApplyCategory(u, c);
      CategoryIsWellFormed(u, c);
      var written := Db(db.users, db.categories[id := cat], db.tasks, db.comments, db.log, db.notifications,
                        db.conversations, db.messages, id + 1);
      Outcome(Stored(id), Signals.Dispatch(written, MasterSignals.CategorySaved(id, cat, true)))
  }

  /** A category the user adds is offered by the user's task forms from
      then on, next to the ones offered before, and is offered to no other
      user. */
  lemma AddedCategoryIsOffered(db: Db, u: UserId, c: CategoryInput, v: UserId)
    requires FreshAbove(db)
    ensures var r := AddCategory(db, u, c);
      r.result.Stored? ==>
        && CategoryChoices(r.db, Some(u)) == CategoryChoices(db, Some(u)) + {r.result.id}
        && (v != u ==> CategoryChoices(r.db, Some(v)) == CategoryChoices(db, Some(v)))
  {
  }

  /** `AddCommentView.post`: the comment form has only `body`, which may be
      blank, so it always validates; the comment is attached to the task
      named in the URL (404 when there is none) and, the view setting no
      author, has none. No ownership check is made. */
  function AddComment(db: Db, taskId: TaskId, body: string): (r: Outcome)
    requires FreshAbove(db)
    ensures r.result == NotFound <==> taskId !in db.tasks
    ensures r.result == NotFound ==> r.db == db
    ensures r.result.Stored? ==>
      && r.result.id !in db.comments
      && r.db.comments == db.comments[r.result.id := Comment(taskId, None, body)]
      && r.db.(comments := db.comments, nextId := db.nextId) == db
    ensures FreshAbove(r.db)
  {
    if taskId !in db.tasks then Outcome(NotFound, db)
    else
      var id := db.nextId;
      Outcome(Stored(id), db.(comments := db.comments[id := Comment(taskId, None, body)], nextId := id + 1))
  }

  /** A comment goes with its task: adding one and then deleting the task
      leaves the same comments as deleting the task alone. */
  lemma CommentGoesWithItsTask(db: Db, taskId: TaskId, body: string)
    requires FreshAbove(db) && taskId in db.tasks
    ensures DeleteTasks(AddComment(db, taskId, body).db, {taskId}).comments == DeleteTasks(db, {taskId}).comments
  {
  }
}

=== FILE: master_signals.dfy ===
/** The activity-log receivers of the `TooDoo-master` tree
    (TooDoo-master/todo/todo_project/signals.py). Every task or category
    save or delete appends exactly one ActivityLog row; this file sends
    no notifications. The `todo` tree's signals.py (module Signals) has the
    same four receivers and adds the assignment notifications. */
module MasterSignals {
  import opened Wrappers
  import opened Models

  /** A save or delete the ORM reports after it has happened. */
  datatype Event =
    | TaskSaved(taskId: TaskId, task: Task, created: bool)
    | TaskDeleted(taskId: TaskId, task: Task)
    | CategorySaved(categoryId: CategoryId, category: Category, created: bool)
    | CategoryDeleted(categoryId: CategoryId, category: Category)

  /** The action kind logged when a task is saved. */
  function TaskSaveAction(created: bool, completed: bool): (a: Action)
    ensures a == TaskAdd <==> created
    ensures a == TaskComplete <==> !created && completed
    ensures a == TaskUpdate <==> !created && !completed
  {
    if created then TaskAdd
    else if completed then TaskComplete
    else TaskUpdate
  }

  function TaskSaveDetails(title: string, created: bool, completed: bool): string
  {
    if created then "Task '" + title + "' added."
    else if completed then "Task '" + title + "' completed."
    else "Task '" + title + "' updated."
  }

  /** The one entry a receiver writes for an event: attributed to the
      owner of the task or category, carrying its id. */
  function EntryFor(ev: Event): (e: LogEntry)
    ensures ev.TaskSaved? ==>
      e.user == ev.task.owner && e.objectId == ev.taskId
      && e.action == TaskSaveAction(ev.created, ev.task.completed)
    ensures ev.TaskDeleted? ==>
      e.user == ev.task.owner && e.objectId == ev.taskId && e.action == TaskDelete
    ensures ev.CategorySaved? ==>
      e.user == ev.category.user && e.objectId == ev.categoryId
      && e.action == (if ev.created then CategoryAdd else CategoryUpdate)
    ensures ev.CategoryDeleted? ==>
      e.user == ev.category.user && e.objectId == ev.categoryId && e.action == CategoryDelete
  {
    match ev
    case TaskSaved(id, t, created) =>
      LogEntry(t.owner, TaskSaveAction(created, t.completed), id, TaskSaveDetails(t.title, created, t.completed))
    case TaskDeleted(id, t) =>
      LogEntry(t.owner, TaskDelete, id, "Task '" + t.title + "' deleted.")
    case CategorySaved(id, c, created) =>
      LogEntry(c.user, if created then CategoryAdd else CategoryUpdate, id,
        "Category '" + c.name + "' " + (if created then "created" else "updated") + ".")
    case CategoryDeleted(id, c) =>
      LogEntry(c.user, CategoryDelete, id, "Category '" + c.name + "' deleted.")
  }

  /** Append one ActivityLog row; nothing else in the store changes. */
  function AppendLog(db: Db, e: LogEntry): (r: Db)
    ensures |r.log| == |db.log| + 1 && r.log[..|db.log|] == db.log && r.log[|db.log|] == e
    ensures r.(log := db.log) == db
  {
    db.(log := db.log + [e])
  }

  /** Run the receivers registered for one event. */
  function Dispatch(db: Db, ev: Event): (r: Db)
    ensures |r.log| == |db.log| + 1 && r.log[..|db.log|] == db.log && r.log[|db.log|] == EntryFor(ev)
    ensures r.notifications == db.notifications
    ensures r.(log := db.log) == db
  {
    AppendLog(db, EntryFor(ev))
  }

  /** Run the receivers for a series of events, in order. */
  function DispatchAll(db: Db, evs: seq<Event>): (r: Db)
    ensures |r.log| == |db.log| + |evs|
    ensures r.log[..|db.log|] == db.log
    ensures forall k :: 0 <= k < |evs| ==> r.log[|db.log| + k] == EntryFor(evs[k])
    ensures r.(log := db.log) == db
    decreases |evs|
  {
    if evs == [] then db else DispatchAll(Dispatch(db, evs[0]), evs[1..])
  }

  /** Dispatching a series in two parts is dispatching it at once: the
      receivers keep no state besides the rows they append. */
  lemma {:induction false} DispatchAllSplits(db: Db, evs1: seq<Event>, evs2: seq<Event>)
    ensures DispatchAll(db, evs1 + evs2) == DispatchAll(DispatchAll(db, evs1), evs2)
    decreases |evs1|
  {
    if evs1 == [] {
      assert evs1 + evs2 == evs2;
    } else {
      assert (evs1 + evs2)[1..] == evs1[1..] + evs2;
      DispatchAllSplits(Dispatch(db, evs1[0]), evs1[1..], evs2);
    }
  }

  /** A task delete logs one `task_delete` row with the task's id, and the
      row stays whatever is dispatched afterwards. */
  lemma TaskDeleteEntrySurvives(db: Db, id: TaskId, t: Task, later: seq<Event>)
    ensures var r := DispatchAll(db, [TaskDeleted(id, t)] + later);
      r.log[|db.log|].action == TaskDelete && r.log[|db.log|].objectId == id
  {
    var evs := [TaskDeleted(id, t)] + later;
    assert evs[0] == TaskDeleted(id, t);
  }
}

=== FILE: master_views.dfy ===
/** The task views of the `TooDoo-master` tree
    (TooDoo-master/todo/todo_project/views.py). They differ from the `todo`
    tree's views in scope: the counts and the all-tasks page cover the tasks
    a user owns or is assigned, the by-category page has no user
    restriction, and the completed page has no query of its own. The writes
    (`mark_completed`, clear-completed) are the same store writes as in
    module Views, run through this tree's receivers (module MasterSignals),
    which only log. */
module MasterViews {
  import opened Wrappers
  import opened Models
  import Queries
  import MasterSignals
  import Signals
  import Views

  /** `TaskCountsMixin`: every count is over the tasks the user owns or
      is assigned. */
  function DashboardCounts(db: Db, u: UserId, today: Day): (c: Queries.Counts)
    ensures c.all + c.completed == |Queries.VisibleIds(db.tasks, u, Queries.OwnerOrAssignee)|
    ensures c.scheduled + c.overdue <= c.all
    ensures c.low + c.medium + c.high + c.urgent <= c.all
    ensures c.all == |set id | id in db.tasks && !db.tasks[id].completed
                        && (db.tasks[id].owner == u || db.tasks[id].assignee == Some(u))|
    ensures c.scheduled == |Queries.ScheduledOpenIds(db.tasks, u, Queries.OwnerOrAssignee, today)|
    ensures c.overdue == |Queries.OverdueOpenIds(db.tasks, u, Queries.OwnerOrAssignee, today)|
    ensures c.low == |Queries.PriorityOpenIds(db.tasks, u, Queries.OwnerOrAssignee, "low")|
    ensures c.medium == |Queries.PriorityOpenIds(db.tasks, u, Queries.OwnerOrAssignee, "medium")|
    ensures c.high == |Queries.PriorityOpenIds(db.tasks, u, Queries.OwnerOrAssignee, "high")|
    ensures c.urgent == |Queries.PriorityOpenIds(db.tasks, u, Queries.OwnerOrAssignee, "urgent")|
  {
    var c := Queries.TaskCounts(db.tasks, u, Queries.OwnerOrAssignee, today);
    assert Queries.OpenIds(db.tasks, u, Queries.OwnerOrAssignee)
      == set id | id in db.tasks && !db.tasks[id].completed
                  && (db.tasks[id].owner == u || db.tasks[id].assignee == Some(u));
    c
  }

  /** A task assigned to a user counts on that user's dashboard here and
      not in the `todo` tree, when someone else owns it. */
  lemma AssignedTaskCountsOnlyHere(db: Db, u: UserId, today: Day, id: TaskId)
    requires id in db.tasks && !db.tasks[id].completed
    requires db.tasks[id].owner != u && db.tasks[id].assignee == Some(u)
    ensures Views.DashboardCounts(db, u, today).all < DashboardCounts(db, u, today).all
  {
    var narrow := Queries.OpenIds(db.tasks, u, Queries.OwnerOnly);
    var wide := Queries.OpenIds(db.tasks, u, Queries.OwnerOrAssignee);
    assert narrow <= wide - {id};
    Queries.SubsetCard(narrow, wide - {id});
    assert narrow == set id | id in db.tasks && db.tasks[id].owner == u && !db.tasks[id].completed;
  }

  /** The all-tasks page: the tasks the user owns or is assigned. */
  function AllTaskList(db: Db, u: UserId): (r: set<TaskId>)
    ensures forall id :: id in r <==>
      id in db.tasks && (db.tasks[id].owner == u || db.tasks[id].assignee == Some(u))
    ensures Queries.OwnedIds(db.tasks, u) <= r
  {
    Queries.VisibleIds(db.tasks, u, Queries.OwnerOrAssignee)
  }

  /** The completed page as written: `CompletedTaskListView` has no
      `get_queryset`, so it lists every task in the store, and its
      `task_count` counts them all. */
  function CompletedPage(db: Db): (r: (set<TaskId>, nat))
    ensures forall id :: id in r.0 <==> id in db.tasks
    ensures r.1 == |db.tasks|
  {
    (db.tasks.Keys, |db.tasks|)
  }

  /** The completed page shows an open task that belongs to someone else:
      here task 0 of user 1, to user 2. */
  lemma CompletedPageShowsOthersOpenTasks()
    ensures var t := NewTask(1, "report", 0);
      var db := Db({1, 2}, map[], map[0 := t], map[], [], [], map[], map[], 1);
      && 0 in CompletedPage(db).0 && !db.tasks[0].completed && db.tasks[0].owner != 2
      && 0 !in Queries.CompletedList(db.tasks, 2)
  {
  }

  /** The completed page with the query the `todo` tree gives it: the
      user's own completed tasks, and their number. */
  function CompletedPageCorrected(db: Db, u: UserId): (r: (set<TaskId>, nat))
    ensures forall id :: id in r.0 <==> id in db.tasks && db.tasks[id].owner == u && db.tasks[id].completed
    ensures r.1 == |r.0|
    ensures r.0 <= CompletedPage(db).0
  {
    var ids := Queries.CompletedList(db.tasks, u);
    (ids, |ids|)
  }

  /** The by-category page: every user's tasks filed under `c`, shown
      whenever the category exists, whoever owns it. */
  function TasksByCategory(db: Db, c: CategoryId): (p: Queries.Page<set<TaskId>>)
    ensures p.Found? <==> c in db.categories
    ensures p.Found? ==> forall id :: id in p.items <==> id in db.tasks && db.tasks[id].category == Some(c)
  {
    var items := Queries.InCategory(db.tasks, db.tasks.Keys, c);
    if c in db.categories then Queries.Found(items) else Queries.NotFound
  }

  /** The by-category page of the `todo` tree shows a subset of this
      tree's, and the same one for the category's owner. */
  lemma ByCategoryNarrowedInTodoTree(db: Db, u: UserId, c: CategoryId)
    requires c in db.categories && db.categories[c].user == u
    ensures Views.TasksByCategory(db, u, c).Found? && TasksByCategory(db, c).Found?
    ensures Views.TasksByCategory(db, u, c).items
      == set id | id in TasksByCategory(db, c).items && db.tasks[id].owner == u
  {
  }

  /** `mark_completed`: the same request handling and store write as the
      `todo` tree, logged by this tree's receiver. */
  function MarkCompleted(db: Db, isPost: bool, taskId: Option<TaskId>, completed: bool): (r: Views.Outcome)
    ensures r.reply == Views.MarkCompletedReply(db, isPost, taskId)
    ensures r.reply != Views.Success ==> r.db == db
    ensures r.reply == Views.Success ==>
      && r.db.tasks.Keys == db.tasks.Keys
      && r.db.tasks[taskId.value] == Views.SetCompleted(db.tasks[taskId.value], completed)
      && (forall id :: id in db.tasks && id != taskId.value ==> r.db.tasks[id] == db.tasks[id])
      && |r.db.log| == |db.log| + 1 && r.db.log[..|db.log|] == db.log
      && r.db.log[|db.log|].action == (if completed then TaskComplete else TaskUpdate)
      && r.db.log[|db.log|].objectId == taskId.value
      && r.db.log[|db.log|].user == db.tasks[taskId.value].owner
      && r.db.notifications == db.notifications
      && r.db.(tasks := db.tasks, log := db.log) == db
  {
    var reply := Views.MarkCompletedReply(db, isPost, taskId);
    if reply != Views.Success then Views.Outcome(reply, db)
    else
      var id := taskId.value;
      var t := Views.SetCompleted(db.tasks[id], completed);
      Views.Outcome(Views.Success, MasterSignals.Dispatch(Views.WithTask(db, id, t), MasterSignals.TaskSaved(id, t, false)))
  }

  /** The two trees answer `mark_completed` identically and leave the
      same store: the `todo` tree's assignment receiver, as wired, adds
      nothing on an update. */
  lemma MarkCompletedSameInBothTrees(db: Db, isPost: bool, taskId: Option<TaskId>, completed: bool)
    ensures MarkCompleted(db, isPost, taskId, completed) == Views.MarkCompleted(db, isPost, taskId, completed)
  {
    var r := Views.MarkCompleted(db, isPost, taskId, completed);
    var m := MarkCompleted(db, isPost, taskId, completed);
    if r.reply == Views.Success {
      assert m.db.log == r.db.log;
      assert m.db.tasks == r.db.tasks;
    }
  }

  /** `ClearCompletedTasksView.post`: every completed task of every user
      goes, and each deletion logs a `task_delete` entry. */
  function ClearCompleted(db: Db, order: seq<TaskId>): (r: Db)
    requires Views.Enumerates(order, Views.CompletedTaskIds(db.tasks))
    ensures Views.CompletedCleared(db, r)
    ensures |r.log| == |db.log| + |order| && r.log[..|db.log|] == db.log
    ensures forall j :: |db.log| <= j < |r.log| ==>
      && r.log[j].action == TaskDelete && r.log[j].objectId == order[j - |db.log|]
      && r.log[j].user == db.tasks[order[j - |db.log|]].owner
  {
    var gone := Views.DeleteCompleted(db);
    var evs := Views.DeleteEvents(db.tasks, order);
    var r := MasterSignals.DispatchAll(gone, evs);
    Views.ClearedWithLog(db, gone, r);
    forall j | |db.log| <= j < |r.log|
      ensures && r.log[j].action == TaskDelete && r.log[j].objectId == order[j - |db.log|]
              && r.log[j].user == db.tasks[order[j - |db.log|]].owner
    {
      var k := j - |db.log|;
      assert r.log[|db.log| + k] == MasterSignals.EntryFor(evs[k]);
    }
    r
  }

  /** The two trees clear completed tasks identically: the `todo` tree's
      receivers add no notification for a delete. */
  lemma ClearCompletedSameInBothTrees(db: Db, order: seq<TaskId>)
    requires Views.Enumerates(order, Views.CompletedTaskIds(db.tasks))
    ensures ClearCompleted(db, order) == Views.ClearCompleted(db, order)
  {
    var evs := Views.DeleteEvents(db.tasks, order);
    Signals.NonSavesDispatchAsMasterTree(Views.DeleteCompleted(db), evs);
  }
}

=== FILE: messaging.dfy ===
/** Private messaging in the `TooDoo-master` tree
    (TooDoo-master/todo/todo_project/views.py): the inbox, `send_message`
    with its find-or-create of a two-user conversation, `message_detail`
    and `DeleteMessageView`.

    A conversation is found by filtering on each participant in turn, so
    the query matches every conversation that includes both users; `first()`
    on that unordered query returns the one with the lowest id. The
    message form is given as its cleaned content, `None` when it does not
    validate. */
module Messaging {
  import opened Wrappers
  import opened Models
  import Queries

  // ---------------------------------------------------------------------
  // Lookup

  /** A non-empty set of ids has a least element: here it is. */
  lemma {:induction false} LeastOf(s: set<nat>) returns (m: nat)
    requires s != {}
    ensures m in s && forall x :: x in s ==> m <= x
    decreases |s|
  {
    var y :| y in s;
    var rest := s - {y};
    if rest == {} {
      assert s == rest + {y};
      m := y;
    } else {
      var least := LeastOf(rest);
      m := if y < least then y else least;
      forall x | x in s ensures m <= x {
        if x != y { assert x in rest; }
      }
    }
  }

  lemma LeastExists(s: set<nat>)
    requires s != {}
    ensures exists m :: m in s && forall x :: x in s ==> m <= x
  {
    var m := LeastOf(s);
  }

  /** The row `first()` returns from an unordered query: lowest id. */
  function Least(s: set<nat>): (m: nat)
    requires s != {}
    ensures m in s && forall x :: x in s ==> m <= x
  {
    LeastExists(s);
    var m :| m in s && forall x :: x in s ==> m <= x;
    m
  }

  /** `inbox`: the conversations the user takes part in. */
  function Inbox(db: Db, u: UserId): (r: set<ConversationId>)
    ensures forall k :: k in r <==> k in db.conversations && u in db.conversations[k].participants
  {
    set k | k in db.conversations && u in db.conversations[k].participants
  }

  /** `filter(participants=a).filter(participants=b)`: the conversations
      that include both users, whoever else takes part. */
  function Shared(db: Db, a: UserId, b: UserId): (r: set<ConversationId>)
    ensures r == Inbox(db, a) * Inbox(db, b)
  {
    set k | k in db.conversations && a in db.conversations[k].participants
                                  && b in db.conversations[k].participants
  }

  datatype Found = Found(conversation: ConversationId, db: Db)

  /** The find-or-create at the top of `send_message`: the lowest-numbered
      conversation including both users, or else a new one with exactly
      those two participants. */
  function FindOrCreate(db: Db, me: UserId, them: UserId): (r: Found)
    requires FreshAbove(db)
    ensures r.conversation in r.db.conversations
    ensures me in r.db.conversations[r.conversation].participants
    ensures them in r.db.conversations[r.conversation].participants
    ensures Shared(db, me, them) != {} ==>
      && r.db == db && r.conversation in Shared(db, me, them)
      && (forall k :: k in Shared(db, me, them) ==> r.conversation <= k)
    ensures Shared(db, me, them) == {} ==>
      && r.conversation !in db.conversations
      && r.db.conversations == db.conversations[r.conversation := Conversation({me, them})]
      && r.db.(conversations := db.conversations, nextId := db.nextId) == db
    ensures FreshAbove(r.db) && r.db.nextId >= db.nextId
  {
    var shared := Shared(db, me, them);
    if shared != {} then Found(Least(shared), db)
    else
      var k := db.nextId;
      Found(k, db.(conversations := db.conversations[k := Conversation({me, them})], nextId := k + 1))
  }

  /** Who asks for whom makes no difference to the lookup. */
  lemma FindOrCreateSymmetric(db: Db, a: UserId, b: UserId)
    requires FreshAbove(db)
    ensures FindOrCreate(db, a, b) == FindOrCreate(db, b, a)
  {
    assert Shared(db, a, b) == Shared(db, b, a);
    assert {a, b} == {b, a};
  }

  // ---------------------------------------------------------------------
  // Requests

  /** A GET, or a POST carrying the message form's cleaned content
      (`None` when the form does not validate). */
  datatype Request = Get | Post(content: Option<string>)

  datatype Response =
    | NotFound                              // 404
    | Forbidden                             // 403
    | ServerError                           // uncaught DoesNotExist
    | Render                                // the page is shown
    | RedirectInbox
    | RedirectDetail(conversation: ConversationId)

  datatype Outcome = Outcome(response: Response, db: Db)

  /** Whether a request stores a message: a POST whose form validates. */
  predicate Sends(req: Request)
  {
    req.Post? && req.content.Some?
  }

  /** The store with a message from `me` in conversation `k` added under
      the next id. */
  function Posted(db: Db, k: ConversationId, me: UserId, content: string): (r: Db)
    requires FreshAbove(db)
    ensures r.nextId == db.nextId + 1
    ensures db.nextId !in db.messages
    ensures r.messages == db.messages[db.nextId := PrivateMessage(k, me, content)]
    ensures r.(messages := db.messages, nextId := db.nextId) == db
    ensures FreshAbove(r)
  {
    db.(messages := db.messages[db.nextId := PrivateMessage(k, me, content)], nextId := db.nextId + 1)
  }

  /** `send_message`: 404 when no user has the name; otherwise the
      conversation is found or created whatever the method, and a POST
      whose form validates stores the message, sent by `me`, in it. */
  function SendMessage(db: Db, me: UserId, recipient: Option<UserId>, req: Request): (r: Outcome)
    requires FreshAbove(db)
    ensures recipient.None? || recipient.value !in db.users ==> r == Outcome(NotFound, db)
    ensures r.response.RedirectDetail? <==> recipient.Some? && recipient.value in db.users && Sends(req)
    ensures r.response.RedirectDetail? ==>
      var k := r.response.conversation;
      && k in r.db.conversations
      && me in r.db.conversations[k].participants
      && recipient.value in r.db.conversations[k].participants
      && r.db.nextId > db.nextId
      && r.db.nextId - 1 !in db.messages
      && r.db.messages == db.messages[r.db.nextId - 1 := PrivateMessage(k, me, req.content.value)]
    ensures !r.response.RedirectDetail? ==> r.db.messages == db.messages
    ensures recipient.Some? && recipient.value in db.users ==>
      exists k :: k in r.db.conversations && me in r.db.conversations[k].participants
                  && recipient.value in r.db.conversations[k].participants
    ensures Shared(db, me, if recipient.Some? then recipient.value else me) != {} ==>
      r.db.conversations == db.conversations
    ensures db.conversations.Keys <= r.db.conversations.Keys
    ensures forall k :: k in db.conversations ==> r.db.conversations[k] == db.conversations[k]
    ensures recipient.Some? && recipient.value in db.users ==>
      var f := FindOrCreate(db, me, recipient.value);
      && (r.response.RedirectDetail? ==> r.response.conversation == f.conversation)
      && r.db.conversations == f.db.conversations
      && (Shared(db, me, recipient.value) == {} ==>
            && f.conversation !in db.conversations
            && r.db.conversations == db.conversations[f.conversation := Conversation({me, recipient.value})])
      && r.db.(messages := db.messages, conversations := db.conversations, nextId := db.nextId) == db
    ensures r.db.tasks == db.tasks && r.db.users == db.users && r.db.log == db.log
    ensures FreshAbove(r.db)
  {
    if recipient.None? || recipient.value !in db.users then Outcome(NotFound, db)
    else
      var f := FindOrCreate(db, me, recipient.value);
      if Sends(req) then
        Outcome(RedirectDetail(f.conversation), Posted(f.db, f.conversation, me, req.content.value))
      else Outcome(Render, f.db)
  }

  /** Once a message has gone to someone, every later `send_message`
      between the same two users, in either direction, uses the same
      conversation and creates none. */
  lemma SecondSendReuses(db: Db, me: UserId, them: UserId, first: Request, second: Request)
    requires FreshAbove(db) && them in db.users && me in db.users
    ensures var f1 := FindOrCreate(db, me, them);
      var r1 := SendMessage(db, me, Some(them), first);
      && FindOrCreate(r1.db, me, them) == Found(f1.conversation, r1.db)
      && FindOrCreate(r1.db, them, me) == Found(f1.conversation, r1.db)
      && SendMessage(r1.db, me, Some(them), second).db.conversations == r1.db.conversations
      && SendMessage(r1.db, them, Some(me), second).db.conversations == r1.db.conversations
  {
    var f1 := FindOrCreate(db, me, them);
    var r1 := SendMessage(db, me, Some(them), first);
    assert r1.db.conversations == f1.db.conversations;
    var s0 := Shared(db, me, them);
    var s1 := Shared(r1.db, me, them);
    if s0 != {} {
      assert s1 == s0;
    } else {
      assert s1 == {f1.conversation};
    }
    FindOrCreateSymmetric(r1.db, me, them);
    assert Shared(r1.db, them, me) == s1;
  }

  /** `message_detail`: 404 for a missing conversation, a redirect to the
      inbox (and nothing stored) for a user who is not a participant, and
      for a participant's valid POST the message is stored. */
  function MessageDetail(db: Db, me: UserId, k: ConversationId, req: Request): (r: Outcome)
    requires FreshAbove(db)
    ensures k !in db.conversations ==> r == Outcome(NotFound, db)
    ensures k in db.conversations && me !in db.conversations[k].participants ==> r == Outcome(RedirectInbox, db)
    ensures r.db != db <==> k in db.conversations && me in db.conversations[k].participants && Sends(req)
    ensures r.db != db ==>
      && r.response == RedirectDetail(k)
      && r.db.messages == db.messages[db.nextId := PrivateMessage(k, me, req.content.value)]
      && db.nextId !in db.messages
      && r.db.(messages := db.messages, nextId := db.nextId) == db
    ensures FreshAbove(r.db)
  {
    if k !in db.conversations then Outcome(NotFound, db)
    else if me !in db.conversations[k].participants then Outcome(RedirectInbox, db)
    else if Sends(req) then Outcome(RedirectDetail(k), Posted(db, k, me, req.content.value))
    else Outcome(Render, db)
  }

  /** Every message stored through `message_detail` is sent by a
      participant of its conversation: as long as that holds of the store,
      it keeps holding. */
  ghost predicate SentByParticipants(db: Db)
  {
    forall m :: m in db.messages ==>
      db.messages[m].conversation in db.conversations
      && db.messages[m].sender in db.conversations[db.messages[m].conversation].participants
  }

  lemma MessageDetailKeepsSendersParticipants(db: Db, me: UserId, k: ConversationId, req: Request)
    requires FreshAbove(db) && SentByParticipants(db)
    ensures SentByParticipants(MessageDetail(db, me, k, req).db)
  {
  }

  /** `DeleteMessageView`: `get_object` uses `get`, so a missing
      conversation is an uncaught error; `test_func` admits only
      participants; a GET shows the confirmation page and a POST deletes
      the conversation with its messages. */
  function DeleteConversationRequest(db: Db, me: UserId, k: ConversationId, isPost: bool): (r: Outcome)
    ensures k !in db.conversations ==> r == Outcome(ServerError, db)
    ensures k in db.conversations && me !in db.conversations[k].participants ==> r == Outcome(Forbidden, db)
    ensures k !in r.db.conversations <==> k !in db.conversations || (me in db.conversations[k].participants && isPost)
    ensures r.response == RedirectInbox <==> k in db.conversations && me in db.conversations[k].participants && isPost
    ensures r.response == RedirectInbox ==>
      && r.db.conversations.Keys == db.conversations.Keys - {k}
      && (forall m :: m in r.db.messages <==> m in db.messages && db.messages[m].conversation != k)
      && (forall j :: j in r.db.conversations ==> r.db.conversations[j] == db.conversations[j])
      && (forall m :: m in r.db.messages ==> r.db.messages[m] == db.messages[m])
      && r.db == db.(conversations := r.db.conversations, messages := r.db.messages)
    ensures r.response != RedirectInbox ==> r.db == db
  {
    if k !in db.conversations then Outcome(ServerError, db)
    else if me !in db.conversations[k].participants then Outcome(Forbidden, db)
    else if isPost then Outcome(RedirectInbox, DeleteConversation(db, k))
    else Outcome(Render, db)
  }

  /** Deleting a conversation keeps every surviving message's sender a
      participant of its conversation, and the deleted conversation leaves
      every inbox. */
  lemma DeleteConversationKeepsSendersParticipants(db: Db, me: UserId, k: ConversationId, isPost: bool)
    requires SentByParticipants(db)
    ensures SentByParticipants(DeleteConversationRequest(db, me, k, isPost).db)
    ensures DeleteConversationRequest(db, me, k, isPost).response == RedirectInbox ==>
      forall u :: k !in Inbox(DeleteConversationRequest(db, me, k, isPost).db, u)
  {
  }

  // ---------------------------------------------------------------------
  // Messages to oneself

  /** A user who messages themselves matches every conversation they take
      part in: here user 1, sharing conversation 0 with user 2, posts into
      conversation 0, where user 2 reads it. */
  lemma SelfMessageLandsInSharedConversation()
    ensures var db := Db({1, 2}, map[], map[], map[], [], [], map[0 := Conversation({1, 2})], map[], 1);
      var r := SendMessage(db, 1, Some(1), Post(Some("note")));
      && r.response == RedirectDetail(0)
      && 2 in r.db.conversations[0].participants
      && r.db.messages == map[1 := PrivateMessage(0, 1, "note")]
  {
    var db := Db({1, 2}, map[], map[], map[], [], [], map[0 := Conversation({1, 2})], map[], 1);
    assert Shared(db, 1, 1) == {0};
  }

  /** The conversations whose participants are exactly the two users. */
  function Exact(db: Db, a: UserId, b: UserId): (r: set<ConversationId>)
    ensures forall k :: k in r <==> k in db.conversations && db.conversations[k].participants == {a, b}
    ensures r <= Shared(db, a, b)
  {
    set k | k in db.conversations && db.conversations[k].participants == {a, b}
  }

  /** The lookup as the code's own comment describes it: the conversation
      of exactly the two users, created when there is none. A message to
      oneself then goes to one's own conversation. */
  function FindOrCreateExact(db: Db, me: UserId, them: UserId): (r: Found)
    requires FreshAbove(db)
    ensures r.conversation in r.db.conversations
    ensures r.db.conversations[r.conversation].participants == {me, them}
    ensures Exact(db, me, them) != {} ==> r.db == db
    ensures Exact(db, me, them) == {} ==>
      && r.conversation !in db.conversations
      && r.db.conversations == db.conversations[r.conversation := Conversation({me, them})]
      && r.db.(conversations := db.conversations, nextId := db.nextId) == db
    ensures FreshAbove(r.db)
  {
    var exact := Exact(db, me, them);
    if exact != {} then Found(Least(exact), db)
    else
      var k := db.nextId;
      Found(k, db.(conversations := db.conversations[k := Conversation({me, them})], nextId := k + 1))
  }

  /** Two distinct users in a store of conversations with at most two
      participants each (all that `send_message` creates) get the same
      conversation from both lookups. */
  lemma ExactAgreesForTwoUsers(db: Db, me: UserId, them: UserId)
    requires FreshAbove(db) && me != them
    requires forall k :: k in db.conversations ==> |db.conversations[k].participants| <= 2
    ensures FindOrCreateExact(db, me, them) == FindOrCreate(db, me, them)
  {
    forall k | k in Shared(db, me, them) ensures k in Exact(db, me, them) {
      var p := db.conversations[k].participants;
      var extra := p - {me, them};
      if extra != {} {
        var x :| x in extra;
        assert {me, them, x} <= p;
        Queries.SubsetCard({me, them, x}, p);
        assert false;
      }
      assert p == {me, them};
    }
    assert Exact(db, me, them) == Shared(db, me, them);
  }
}

=== FILE: models.dfy ===
/** The records of the to-do application and the delete rules of their
    foreign keys. The store is one immutable value, `Db`; every operation of
    the other modules maps a `Db` to a new `Db`. */
module Models {
  import opened Wrappers

  type UserId = nat
  type TaskId = nat
  type CategoryId = nat
  type CommentId = nat
  type ConversationId = nat
  type MessageId = nat

  /** A calendar date (a `DateField`) as a day number. */
  type Day = int

  /** A point in time (a `DateTimeField`) as whole seconds. */
  type Instant = int

  const SecondsPerDay: int := 86400

  /** The calendar day an instant falls on. */
  function DayOf(t: Instant): Day
  {
    t / SecondsPerDay
  }

  // ---------------------------------------------------------------------
  // Field limits and choices

  const TitleMaxLength: nat := 100
  const CategoryNameMaxLength: nat := 50
  const ColorMaxLength: nat := 7
  const ChoiceMaxLength: nat := 10
  const DefaultColor: string := "#FFFFFF"

  /** The stored codes of `PRIORITY_CHOICES`. */
  const PriorityChoices: seq<string> := ["low", "medium", "high", "urgent"]

  /** The stored codes of `RECURRING_CHOICES`; "minute" is not among them. */
  const IntervalChoices: seq<string> := ["daily", "weekly", "monthly"]

  /** A nullable choice field holds null or one of its declared codes. */
  predicate ValidChoice(v: Option<string>, choices: seq<string>)
  {
    v.None? || v.value in choices
  }

  lemma DefaultColorFits()
    ensures |DefaultColor| <= ColorMaxLength
  {
  }

  lemma MinuteIsNotADeclaredInterval()
    ensures "minute" !in IntervalChoices
    ensures forall c :: c in IntervalChoices ==> |c| <= ChoiceMaxLength
    ensures forall c :: c in PriorityChoices ==> |c| <= ChoiceMaxLength
  {
  }

  // ---------------------------------------------------------------------
  // Records

  datatype Category = Category(name: string, user: UserId, color: string)

  /** A task. `owner` is the `user` column. The recurrence window, the
      assignee and the parent link are the fields the recurrence engine and the
      views use. */
  datatype Task = Task(
    owner: UserId,
    assignee: Option<UserId>,
    title: string,
    description: string,
    completed: bool,
    createdAt: Day,
    category: Option<CategoryId>,
    dueDate: Option<Day>,
    recurring: bool,
    recurringInterval: Option<string>,
    recurringStartDate: Option<Day>,
    recurringEndDate: Option<Day>,
    file: Option<string>,
    bookmarked: bool,
    priority: Option<string>,
    parentTask: Option<TaskId>)

  /** A comment; `author` is the nullable `user` column. */
  datatype Comment = Comment(post: TaskId, author: Option<UserId>, body: string)

  datatype Action =
    | TaskAdd | TaskUpdate | TaskComplete | TaskDelete
    | CategoryAdd | CategoryUpdate | CategoryDelete

  /** One ActivityLog row; rows are only ever appended. */
  datatype LogEntry = LogEntry(user: UserId, action: Action, objectId: nat, details: string)

  /** One Notification row; its task link is nulled when the task goes. */
  datatype Notification = Notification(user: UserId, message: string, task: Option<TaskId>, read: bool)

  datatype Conversation = Conversation(participants: set<UserId>)

  datatype PrivateMessage = PrivateMessage(conversation: ConversationId, sender: UserId, content: string)

  /** The whole store. Ids of every table are drawn from `nextId`. */
  datatype Db = Db(
    users: set<UserId>,
    categories: map<CategoryId, Category>,
    tasks: map<TaskId, Task>,
    comments: map<CommentId, Comment>,
    log: seq<LogEntry>,
    notifications: seq<Notification>,
    conversations: map<ConversationId, Conversation>,
    messages: map<MessageId, PrivateMessage>,
    nextId: nat)

  /** Every id in use is below the id counter. */
  ghost predicate FreshAbove(db: Db)
  {
    && (forall id :: id in db.categories ==> id < db.nextId)
    && (forall id :: id in db.tasks ==> id < db.nextId)
    && (forall id :: id in db.comments ==> id < db.nextId)
    && (forall id :: id in db.conversations ==> id < db.nextId)
    && (forall id :: id in db.messages ==> id < db.nextId)
  }

  /** The length limits and choice lists of a task's columns. */
  predicate WellFormedTask(t: Task)
  {
    && |t.title| <= TitleMaxLength
    && ValidChoice(t.priority, PriorityChoices)
    && ValidChoice(t.recurringInterval, IntervalChoices)
  }

  predicate WellFormedCategory(c: Category)
  {
    |c.name| <= CategoryNameMaxLength && |c.color| <= ColorMaxLength
  }

  // ---------------------------------------------------------------------
  // Defaults

  /** A task as the model's field defaults leave it, given the three
      values that have no default. */
  function NewTask(owner: UserId, title: string, today: Day): (t: Task)
    ensures t.owner == owner && t.title == title && t.createdAt == today
    ensures !t.completed && !t.recurring && !t.bookmarked
    ensures t.assignee.None? && t.category.None? && t.dueDate.None? && t.priority.None?
    ensures t.recurringInterval.None? && t.recurringStartDate.None? && t.recurringEndDate.None?
    ensures t.file.None? && t.parentTask.None? && t.description == ""
  {
    Task(owner, None, title, "", false, today, None, None, false, None, None, None, None, false, None, None)
  }

  /** A category as the model's defaults leave it. */
  function NewCategory(user: UserId, name: string): (c: Category)
    ensures c.user == user && c.name == name && c.color == DefaultColor
    ensures |name| <= CategoryNameMaxLength ==> WellFormedCategory(c)
  {
    Category(name, user, DefaultColor)
  }

  /** `one_week_hence`: the instant seven days from now. */
  function OneWeekHence(now: Instant): (r: Instant)
    ensures r - now == 7 * SecondsPerDay
  {
    now + 7 * SecondsPerDay
  }

  /** One week later is exactly seven calendar days later. */
  lemma OneWeekHenceIsSevenDays(now: Instant)
    ensures DayOf(OneWeekHence(now)) == DayOf(now) + 7
  {
    var q := now / SecondsPerDay;
    var m := now % SecondsPerDay;
    assert now == q * SecondsPerDay + m && 0 <= m < SecondsPerDay;
    assert OneWeekHence(now) == (q + 7) * SecondsPerDay + m;
  }

  // ---------------------------------------------------------------------
  // Delete rules

  /** Null the `task` link of the notifications that point at `id`. */
  function DetachNotifications(ns: seq<Notification>, ids: set<TaskId>): (r: seq<Notification>)
    ensures |r| == |ns|
    ensures forall i :: 0 <= i < |ns| ==>
      (if ns[i].task.Some? && ns[i].task.value in ids then r[i] == ns[i].(task := None) else r[i] == ns[i])
  {
    seq(|ns|, i requires 0 <= i < |ns| =>
      if ns[i].task.Some? && ns[i].task.value in ids then ns[i].(task := None) else ns[i])
  }

  /** The task with its links into deleted rows nulled: the parent link
      when the parent is in `goneTasks`, the category when it is in
      `goneCategories`. */
  function DetachTask(t: Task, goneTasks: set<TaskId>, goneCategories: set<CategoryId>): (r: Task)
    ensures r.parentTask.Some? ==> r.parentTask.value !in goneTasks
    ensures r.category.Some? ==> r.category.value !in goneCategories
    ensures r.(parentTask := t.parentTask, category := t.category) == t
    ensures t.parentTask.Some? && t.parentTask.value !in goneTasks ==> r.parentTask == t.parentTask
    ensures t.category.Some? && t.category.value !in goneCategories ==> r.category == t.category
  {
    var t1 := if t.parentTask.Some? && t.parentTask.value in goneTasks then t.(parentTask := None) else t;
    if t1.category.Some? && t1.category.value in goneCategories then t1.(category := None) else t1
  }

  /** The task table without `ids`, the survivors detached from them. */
  function RemoveTasks(tasks: map<TaskId, Task>, ids: set<TaskId>): (r: map<TaskId, Task>)
    ensures r.Keys == tasks.Keys - ids
    ensures forall id :: id in r ==> r[id] == DetachTask(tasks[id], ids, {})
  {
    map id | id in tasks && id !in ids :: DetachTask(tasks[id], ids, {})
  }

  /** The comment table without the comments posted on `ids`. */
  function CascadeComments(comments: map<CommentId, Comment>, ids: set<TaskId>): (r: map<CommentId, Comment>)
    ensures forall c :: c in r <==> c in comments && comments[c].post !in ids
    ensures forall c :: c in r ==> r[c] == comments[c]
  {
    map c | c in comments && comments[c].post !in ids :: comments[c]
  }

  /** Remove the tasks `ids` with their cascades: their comments go, the
      notifications and clones that point at them lose the link. */
  function DeleteTasks(db: Db, ids: set<TaskId>): (r: Db)
    ensures r.tasks.Keys == db.tasks.Keys - ids
    ensures forall id :: id in r.tasks ==>
      && r.tasks[id].(parentTask := db.tasks[id].parentTask) == db.tasks[id]
      && (r.tasks[id].parentTask.Some? ==> r.tasks[id].parentTask.value !in ids)
      && (db.tasks[id].parentTask.Some? && db.tasks[id].parentTask.value !in ids
          ==> r.tasks[id].parentTask == db.tasks[id].parentTask)
    ensures forall c :: c in r.comments <==> c in db.comments && db.comments[c].post !in ids
    ensures forall c :: c in r.comments ==> r.comments[c] == db.comments[c]
    ensures |r.notifications| == |db.notifications|
    ensures r.notifications == DetachNotifications(db.notifications, ids)
    ensures forall i :: 0 <= i < |r.notifications| ==>
      r.notifications[i].task.Some? ==> r.notifications[i].task.value !in ids
    ensures r.(tasks := db.tasks, comments := db.comments, notifications := db.notifications) == db
  {
    db.(
      tasks := RemoveTasks(db.tasks, ids),
      comments := CascadeComments(db.comments, ids),
      notifications := DetachNotifications(db.notifications, ids))
  }

  /** Deleting one task deletes exactly the comments posted on it. */
  lemma DeleteTaskCascadesComments(db: Db, id: TaskId)
    ensures forall c :: c in db.comments ==>
      (c in DeleteTasks(db, {id}).comments <==> db.comments[c].post != id)
    ensures id !in DeleteTasks(db, {id}).tasks
  {
  }

  /** Delete a category: its tasks stay, with the category nulled. */
  function DeleteCategory(db: Db, id: CategoryId): (r: Db)
    ensures r.categories.Keys == db.categories.Keys - {id}
    ensures r.tasks.Keys == db.tasks.Keys
    ensures forall c :: c in r.categories ==> r.categories[c] == db.categories[c]
    ensures forall t :: t in r.tasks ==>
      r.tasks[t].category != Some(id) && r.tasks[t].(category := db.tasks[t].category) == db.tasks[t]
    ensures forall t :: t in r.tasks && db.tasks[t].category != Some(id) ==> r.tasks[t] == db.tasks[t]
    ensures r.(categories := db.categories, tasks := db.tasks) == db
  {
    db.(
      categories := map c | c in db.categories && c != id :: db.categories[c],
      tasks := map t | t in db.tasks :: DetachTask(db.tasks[t], {}, {id}))
  }

  /** The tasks a user owns. */
  function OwnedTasks(db: Db, u: UserId): set<TaskId>
  {
    set t | t in db.tasks && db.tasks[t].owner == u
  }

  /** The categories a user owns. */
  function OwnedCategories(db: Db, u: UserId): set<CategoryId>
  {
    set c | c in db.categories && db.categories[c].user == u
  }

  /** The task with its assignee nulled when it is `u` (the rule this
      model takes for `assigned_to`); every other column is kept. */
  function Unassign(t: Task, u: UserId): (r: Task)
    ensures r.assignee != Some(u)
    ensures t.assignee != Some(u) ==> r == t
    ensures r.(assignee := t.assignee) == t
  {
    if t.assignee == Some(u) then t.(assignee := None) else t
  }

  /** The tasks not owned by `u`, detached from the deleted tasks and
      categories and from `u` as assignee. */
  function OrphanedTasks(tasks: map<TaskId, Task>, u: UserId, goneTasks: set<TaskId>, goneCats: set<CategoryId>)
    : (r: map<TaskId, Task>)
    ensures r.Keys == set t | t in tasks && tasks[t].owner != u
    ensures forall t :: t in r ==> r[t] == Unassign(DetachTask(tasks[t], goneTasks, goneCats), u)
  {
    map t | t in tasks && tasks[t].owner != u :: Unassign(DetachTask(tasks[t], goneTasks, goneCats), u)
  }

  /** Every conversation, with `u` removed from its participants. */
  function LeaveConversations(cs: map<ConversationId, Conversation>, u: UserId): (r: map<ConversationId, Conversation>)
    ensures r.Keys == cs.Keys
    ensures forall k :: k in r ==> r[k].participants == cs[k].participants - {u}
  {
    map k | k in cs :: Conversation(cs[k].participants - {u})
  }

  /** Delete a user: owned tasks and categories go (CASCADE), with the
      comments on those tasks and the comments the user wrote; the other
      tasks lose their links to deleted categories and tasks and, when the
      user was their assignee, the assignee; the user leaves every
      conversation and the messages they sent go. The ActivityLog is kept
      as it stands and no receiver runs. */
  function DeleteUser(db: Db, u: UserId): (r: Db)
    ensures r.users == db.users - {u}
    ensures r.tasks.Keys == db.tasks.Keys - OwnedTasks(db, u)
    ensures r.categories.Keys == db.categories.Keys - OwnedCategories(db, u)
    ensures forall c :: c in r.categories ==> r.categories[c] == db.categories[c]
    ensures forall t :: t in r.tasks ==>
      r.tasks[t].(category := db.tasks[t].category, parentTask := db.tasks[t].parentTask,
                  assignee := db.tasks[t].assignee) == db.tasks[t]
    ensures forall t :: t in r.tasks ==>
      && r.tasks[t].owner != u && r.tasks[t].assignee != Some(u)
      && (r.tasks[t].category.Some? ==> r.tasks[t].category.value !in OwnedCategories(db, u))
      && (r.tasks[t].parentTask.Some? ==> r.tasks[t].parentTask.value !in OwnedTasks(db, u))
    ensures forall t :: t in r.tasks ==>
      && (db.tasks[t].assignee != Some(u) ==> r.tasks[t].assignee == db.tasks[t].assignee)
      && (db.tasks[t].category.Some? && db.tasks[t].category.value !in OwnedCategories(db, u)
          ==> r.tasks[t].category == db.tasks[t].category)
      && (db.tasks[t].parentTask.Some? && db.tasks[t].parentTask.value !in OwnedTasks(db, u)
          ==> r.tasks[t].parentTask == db.tasks[t].parentTask)
    ensures forall c :: c in r.comments <==>
      c in db.comments && db.comments[c].post !in OwnedTasks(db, u) && db.comments[c].author != Some(u)
    ensures forall c :: c in r.comments ==> r.comments[c] == db.comments[c]
    ensures |r.notifications| == |db.notifications|
    ensures forall i :: 0 <= i < |r.notifications| ==>
      && r.notifications[i].(task := db.notifications[i].task) == db.notifications[i]
      && (r.notifications[i].task.Some? ==> r.notifications[i].task.value !in OwnedTasks(db, u))
    ensures r.conversations.Keys == db.conversations.Keys
    ensures forall k :: k in r.conversations ==>
      r.conversations[k].participants == db.conversations[k].participants - {u}
    ensures forall m :: m in r.messages <==> m in db.messages && db.messages[m].sender != u
    ensures forall m :: m in r.messages ==> r.messages[m] == db.messages[m]
    ensures r.log == db.log && r.nextId == db.nextId
  {
    var goneTasks := OwnedTasks(db, u);
    db.(
      users := db.users - {u},
      tasks := OrphanedTasks(db.tasks, u, goneTasks, OwnedCategories(db, u)),
      categories := map c | c in db.categories && db.categories[c].user != u :: db.categories[c],
      comments := map c | c in db.comments && db.comments[c].post !in goneTasks && db.comments[c].author != Some(u)
        :: db.comments[c],
      notifications := DetachNotifications(db.notifications, goneTasks),
      conversations := LeaveConversations(db.conversations, u),
      messages := map m | m in db.messages && db.messages[m].sender != u :: db.messages[m])
  }

  /** Delete a conversation and, by CASCADE, its messages; nothing else
      changes. */
  function DeleteConversation(db: Db, id: ConversationId): (r: Db)
    ensures r.conversations.Keys == db.conversations.Keys - {id}
    ensures forall k :: k in r.conversations ==> r.conversations[k] == db.conversations[k]
    ensures forall m :: m in r.messages <==> m in db.messages && db.messages[m].conversation != id
    ensures forall m :: m in r.messages ==> r.messages[m] == db.messages[m]
    ensures r == db.(conversations := r.conversations, messages := r.messages)
  {
    db.(
      conversations := map k | k in db.conversations && k != id :: db.conversations[k],
      messages := map m | m in db.messages && db.messages[m].conversation != id :: db.messages[m])
  }
}

=== FILE: queries.dfy ===
/** The task queries behind the dashboard counts and the list pages, as
    sets of ids over the task table. Both trees count the same eight
    figures; they differ only in which tasks a user sees, so visibility is a
    parameter (`Scope`). A `DateField` compared with `timezone.now()`
    compares calendar days, so "now" is the day `today`. */
module Queries {
  import opened Wrappers
  import opened Models
  import Text

  /** Whose tasks a query covers: the owner's only (`user=user`), or the
      owner's and the ones assigned to the user (`Q(user=user) |
      Q(assigned_to=user)`). */
  datatype Scope = OwnerOnly | OwnerOrAssignee

  predicate Visible(t: Task, u: UserId, scope: Scope)
  {
    t.owner == u || (scope == OwnerOrAssignee && t.assignee == Some(u))
  }

  function VisibleIds(tasks: map<TaskId, Task>, u: UserId, scope: Scope): set<TaskId>
  {
    set id | id in tasks && Visible(tasks[id], u, scope)
  }

  /** `completed=False` over the visible tasks. */
  function OpenIds(tasks: map<TaskId, Task>, u: UserId, scope: Scope): set<TaskId>
  {
    set id | id in tasks && Visible(tasks[id], u, scope) && !tasks[id].completed
  }

  /** `completed=True` over the visible tasks. */
  function CompletedIds(tasks: map<TaskId, Task>, u: UserId, scope: Scope): set<TaskId>
  {
    set id | id in tasks && Visible(tasks[id], u, scope) && tasks[id].completed
  }

  /** Open tasks due today or later; a null due date never matches. */
  function ScheduledOpenIds(tasks: map<TaskId, Task>, u: UserId, scope: Scope, today: Day): set<TaskId>
  {
    set id | id in OpenIds(tasks, u, scope) && tasks[id].dueDate.Some? && tasks[id].dueDate.value >= today
  }

  /** Open tasks due before today; a null due date never matches. */
  function OverdueOpenIds(tasks: map<TaskId, Task>, u: UserId, scope: Scope, today: Day): set<TaskId>
  {
    set id | id in OpenIds(tasks, u, scope) && tasks[id].dueDate.Some? && tasks[id].dueDate.value < today
  }

  /** Open tasks with no due date, which neither date count sees. */
  function UndatedOpenIds(tasks: map<TaskId, Task>, u: UserId, scope: Scope): set<TaskId>
  {
    set id | id in OpenIds(tasks, u, scope) && tasks[id].dueDate.None?
  }

  /** Open tasks whose stored priority is `code`. */
  function PriorityOpenIds(tasks: map<TaskId, Task>, u: UserId, scope: Scope, code: string): set<TaskId>
  {
    set id | id in OpenIds(tasks, u, scope) && tasks[id].priority == Some(code)
  }

  /** Open tasks whose priority is none of the four codes (null, in
      practice), which no priority count sees. */
  function UnrankedOpenIds(tasks: map<TaskId, Task>, u: UserId, scope: Scope): set<TaskId>
  {
    set id | id in OpenIds(tasks, u, scope) && (tasks[id].priority.None? || tasks[id].priority.value !in PriorityChoices)
  }

  /** The eight figures `TaskCountsMixin` puts in the context. */
  datatype Counts = Counts(
    all: nat, scheduled: nat, overdue: nat, completed: nat,
    low: nat, medium: nat, high: nat, urgent: nat)

  lemma {:induction false} SubsetCard<T>(a: set<T>, b: set<T>)
    requires a <= b
    ensures |a| <= |b|
    decreases |b|
  {
    if a != {} {
      var x :| x in a;
      SubsetCard(a - {x}, b - {x});
    }
  }

  /** Cardinality of a union of pairwise disjoint sets. */
  lemma DisjointUnionCard<T>(a: set<T>, b: set<T>)
    requires a !! b
    ensures |a + b| == |a| + |b|
  {
  }

  /** Open and completed tasks are all the visible ones, and no task is
      both. */
  lemma {:induction false} OpenCompletedSplit(tasks: map<TaskId, Task>, u: UserId, scope: Scope)
    ensures |OpenIds(tasks, u, scope)| + |CompletedIds(tasks, u, scope)| == |VisibleIds(tasks, u, scope)|
  {
    var open := OpenIds(tasks, u, scope);
    var done := CompletedIds(tasks, u, scope);
    assert VisibleIds(tasks, u, scope) == open + done;
    DisjointUnionCard(open, done);
  }

  /** Every open task is due today or later, overdue, or undated. */
  lemma {:induction false} DateSplit(tasks: map<TaskId, Task>, u: UserId, scope: Scope, today: Day)
    ensures |ScheduledOpenIds(tasks, u, scope, today)| + |OverdueOpenIds(tasks, u, scope, today)|
      + |UndatedOpenIds(tasks, u, scope)| == |OpenIds(tasks, u, scope)|
  {
    var sched := ScheduledOpenIds(tasks, u, scope, today);
    var over := OverdueOpenIds(tasks, u, scope, today);
    var undated := UndatedOpenIds(tasks, u, scope);
    assert OpenIds(tasks, u, scope) == sched + over + undated;
    DisjointUnionCard(sched, over);
    DisjointUnionCard(sched + over, undated);
  }

  lemma PriorityDisjoint(tasks: map<TaskId, Task>, u: UserId, scope: Scope, c1: string, c2: string)
    requires c1 != c2
    ensures PriorityOpenIds(tasks, u, scope, c1) !! PriorityOpenIds(tasks, u, scope, c2)
  {
  }

  /** The four priority sets together are the open tasks with a declared
      priority. */
  lemma RankedUnion(tasks: map<TaskId, Task>, u: UserId, scope: Scope)
    ensures PriorityOpenIds(tasks, u, scope, "low") + PriorityOpenIds(tasks, u, scope, "medium")
      + PriorityOpenIds(tasks, u, scope, "high") + PriorityOpenIds(tasks, u, scope, "urgent")
      == OpenIds(tasks, u, scope) - UnrankedOpenIds(tasks, u, scope)
  {
    assert PriorityChoices == ["low", "medium", "high", "urgent"];
  }

  /** Every open task has one of the four priorities or none of them. */
  lemma {:induction false} PrioritySplit(tasks: map<TaskId, Task>, u: UserId, scope: Scope)
    ensures |PriorityOpenIds(tasks, u, scope, "low")| + |PriorityOpenIds(tasks, u, scope, "medium")|
      + |PriorityOpenIds(tasks, u, scope, "high")| + |PriorityOpenIds(tasks, u, scope, "urgent")|
      + |UnrankedOpenIds(tasks, u, scope)| == |OpenIds(tasks, u, scope)|
  {
    var low := PriorityOpenIds(tasks, u, scope, "low");
    var medium := PriorityOpenIds(tasks, u, scope, "medium");
    var high := PriorityOpenIds(tasks, u, scope, "high");
    var urgent := PriorityOpenIds(tasks, u, scope, "urgent");
    var unranked := UnrankedOpenIds(tasks, u, scope);
    assert "low" != "medium" by { assert "low"[0] != "medium"[0]; }
    assert "low" != "high" by { assert "low"[0] != "high"[0]; }
    assert "low" != "urgent" by { assert "low"[0] != "urgent"[0]; }
    assert "medium" != "high" by { assert "medium"[0] != "high"[0]; }
    assert "medium" != "urgent" by { assert "medium"[0] != "urgent"[0]; }
    assert "high" != "urgent" by { assert "high"[0] != "urgent"[0]; }
    PriorityDisjoint(tasks, u, scope, "low", "medium");
    PriorityDisjoint(tasks, u, scope, "low", "high");
    PriorityDisjoint(tasks, u, scope, "low", "urgent");
    PriorityDisjoint(tasks, u, scope, "medium", "high");
    PriorityDisjoint(tasks, u, scope, "medium", "urgent");
    PriorityDisjoint(tasks, u, scope, "high", "urgent");
    DisjointUnionCard(low, medium);
    DisjointUnionCard(low + medium, high);
    DisjointUnionCard(low + medium + high, urgent);
    RankedUnion(tasks, u, scope);
    var ranked := low + medium + high + urgent;
    assert unranked <= OpenIds(tasks, u, scope);
    DisjointUnionCard(ranked, unranked);
    assert OpenIds(tasks, u, scope) == ranked + unranked;
  }

  /** The dashboard counts. The open tasks split into due-today-or-later,
      overdue and undated, and into the four priorities and the rest; open
      and completed together are all the visible tasks. */
  function TaskCounts(tasks: map<TaskId, Task>, u: UserId, scope: Scope, today: Day): (c: Counts)
    ensures c.all + c.completed == |VisibleIds(tasks, u, scope)|
    ensures c.scheduled + c.overdue + |UndatedOpenIds(tasks, u, scope)| == c.all
    ensures c.low + c.medium + c.high + c.urgent + |UnrankedOpenIds(tasks, u, scope)| == c.all
    ensures c.scheduled == |ScheduledOpenIds(tasks, u, scope, today)|
    ensures c.overdue == |OverdueOpenIds(tasks, u, scope, today)|
    ensures c.low == |PriorityOpenIds(tasks, u, scope, "low")| && c.medium == |PriorityOpenIds(tasks, u, scope, "medium")|
    ensures c.high == |PriorityOpenIds(tasks, u, scope, "high")| && c.urgent == |PriorityOpenIds(tasks, u, scope, "urgent")|
  {
    OpenCompletedSplit(tasks, u, scope);
    DateSplit(tasks, u, scope, today);
    PrioritySplit(tasks, u, scope);
    Counts(
      |OpenIds(tasks, u, scope)|,
      |ScheduledOpenIds(tasks, u, scope, today)|,
      |OverdueOpenIds(tasks, u, scope, today)|,
      |CompletedIds(tasks, u, scope)|,
      |PriorityOpenIds(tasks, u, scope, "low")|,
      |PriorityOpenIds(tasks, u, scope, "medium")|,
      |PriorityOpenIds(tasks, u, scope, "high")|,
      |PriorityOpenIds(tasks, u, scope, "urgent")|)
  }

  /** The date counts and the priority counts are each bounded by the open
      count. */
  lemma CountsBounded(tasks: map<TaskId, Task>, u: UserId, scope: Scope, today: Day)
    ensures TaskCounts(tasks, u, scope, today).scheduled + TaskCounts(tasks, u, scope, today).overdue
      <= TaskCounts(tasks, u, scope, today).all
    ensures TaskCounts(tasks, u, scope, today).low + TaskCounts(tasks, u, scope, today).medium
      + TaskCounts(tasks, u, scope, today).high + TaskCounts(tasks, u, scope, today).urgent
      <= TaskCounts(tasks, u, scope, today).all
    ensures ScheduledOpenIds(tasks, u, scope, today) !! OverdueOpenIds(tasks, u, scope, today)
  {
  }

  /** The boundary of the two date counts: an open visible task due today
      is scheduled, not overdue; one due yesterday is overdue. */
  lemma DueTodayIsScheduled(tasks: map<TaskId, Task>, u: UserId, scope: Scope, today: Day, id: TaskId)
    requires id in tasks && Visible(tasks[id], u, scope) && !tasks[id].completed
    ensures tasks[id].dueDate == Some(today) ==>
      id in ScheduledOpenIds(tasks, u, scope, today) && id !in OverdueOpenIds(tasks, u, scope, today)
    ensures tasks[id].dueDate == Some(today - 1) ==>
      id !in ScheduledOpenIds(tasks, u, scope, today) && id in OverdueOpenIds(tasks, u, scope, today)
  {
  }

  /** Adding the assignee's tasks to a user's view never lowers a count. */
  lemma WiderScopeCountsMore(tasks: map<TaskId, Task>, u: UserId, today: Day)
    ensures var narrow := TaskCounts(tasks, u, OwnerOnly, today);
      var wide := TaskCounts(tasks, u, OwnerOrAssignee, today);
      && narrow.all <= wide.all && narrow.completed <= wide.completed
      && narrow.scheduled <= wide.scheduled && narrow.overdue <= wide.overdue
  {
    SubsetCard(OpenIds(tasks, u, OwnerOnly), OpenIds(tasks, u, OwnerOrAssignee));
    SubsetCard(CompletedIds(tasks, u, OwnerOnly), CompletedIds(tasks, u, OwnerOrAssignee));
    SubsetCard(ScheduledOpenIds(tasks, u, OwnerOnly, today), ScheduledOpenIds(tasks, u, OwnerOrAssignee, today));
    SubsetCard(OverdueOpenIds(tasks, u, OwnerOnly, today), OverdueOpenIds(tasks, u, OwnerOrAssignee, today));
  }

  // ---------------------------------------------------------------------
  // List pages

  /** `Task.objects.filter(user=user)`. */
  function OwnedIds(tasks: map<TaskId, Task>, u: UserId): (r: set<TaskId>)
    ensures r == VisibleIds(tasks, u, OwnerOnly)
  {
    set id | id in tasks && tasks[id].owner == u
  }

  /** The scheduled page: the owner's tasks due today or later, completed
      or not. */
  function ScheduledList(tasks: map<TaskId, Task>, u: UserId, today: Day): set<TaskId>
  {
    set id | id in tasks && tasks[id].owner == u && tasks[id].dueDate.Some? && tasks[id].dueDate.value >= today
  }

  /** The overdue page: the owner's tasks due before today, completed or
      not. */
  function OverdueList(tasks: map<TaskId, Task>, u: UserId, today: Day): set<TaskId>
  {
    set id | id in tasks && tasks[id].owner == u && tasks[id].dueDate.Some? && tasks[id].dueDate.value < today
  }

  /** The two date pages split the owner's dated tasks between them, and
      an undated task is on neither. */
  lemma DateListsPartition(tasks: map<TaskId, Task>, u: UserId, today: Day)
    ensures ScheduledList(tasks, u, today) !! OverdueList(tasks, u, today)
    ensures ScheduledList(tasks, u, today) + OverdueList(tasks, u, today)
      == set id | id in OwnedIds(tasks, u) && tasks[id].dueDate.Some?
    ensures forall id :: id in tasks && tasks[id].dueDate.None? ==>
      id !in ScheduledList(tasks, u, today) && id !in OverdueList(tasks, u, today)
  {
  }

  /** The completed page of the `todo` tree: the owner's completed
      tasks. */
  function CompletedList(tasks: map<TaskId, Task>, u: UserId): (r: set<TaskId>)
    ensures r == CompletedIds(tasks, u, OwnerOnly)
  {
    set id | id in tasks && tasks[id].owner == u && tasks[id].completed
  }

  /** The bookmark page: the owner's bookmarked tasks. */
  function BookmarkList(tasks: map<TaskId, Task>, u: UserId): (r: set<TaskId>)
    ensures r <= OwnedIds(tasks, u)
    ensures forall id :: id in OwnedIds(tasks, u) ==> (id in r <==> tasks[id].bookmarked)
  {
    set id | id in tasks && tasks[id].owner == u && tasks[id].bookmarked
  }

  /** The search page: nothing for a missing or empty query, otherwise the
      owner's tasks whose title contains the query, ignoring case. */
  function SearchList(tasks: map<TaskId, Task>, u: UserId, query: Option<string>): (r: set<TaskId>)
    ensures query.None? || query.value == "" ==> r == {}
    ensures query.Some? && query.value != "" ==>
      forall id :: id in r <==> id in OwnedIds(tasks, u) && Text.ContainsIgnoreCase(tasks[id].title, query.value)
  {
    if query.None? || query.value == "" then {}
    else set id | id in tasks && tasks[id].owner == u && Text.ContainsIgnoreCase(tasks[id].title, query.value)
  }

  /** A non-empty query that occurs in a title exactly finds that task. */
  lemma SearchFindsExactMatch(tasks: map<TaskId, Task>, u: UserId, q: string, id: TaskId)
    requires q != "" && id in tasks && tasks[id].owner == u && Text.Contains(tasks[id].title, q)
    ensures id in SearchList(tasks, u, Some(q))
  {
    Text.ContainsImpliesIgnoreCase(tasks[id].title, q);
  }

  /** Changing the case of the query does not change the result. */
  lemma SearchIgnoresQueryCase(tasks: map<TaskId, Task>, u: UserId, q: string)
    requires q != ""
    ensures SearchList(tasks, u, Some(q)) == SearchList(tasks, u, Some(Text.Lower(q)))
  {
    forall id | id in tasks
      ensures Text.ContainsIgnoreCase(tasks[id].title, q) <==> Text.ContainsIgnoreCase(tasks[id].title, Text.Lower(q))
    {
      Text.IgnoreCaseOfFoldedPattern(tasks[id].title, q);
    }
  }

  /** The tasks filed under category `c`, among `among`. */
  function InCategory(tasks: map<TaskId, Task>, among: set<TaskId>, c: CategoryId): (r: set<TaskId>)
    requires among <= tasks.Keys
    ensures r <= among
    ensures forall id :: id in among ==> (id in r <==> tasks[id].category == Some(c))
  {
    set id | id in among && tasks[id].category == Some(c)
  }

  /** What a page that looks an object up with `get_object_or_404` shows. */
  datatype Page<T> = Found(items: T) | NotFound
}

=== FILE: recurrence.dfy ===
/** The recurring-task command (management command
    `check_recurring_tasks`). For each selected template it computes the
    next due date and, when that date lies inside the template's window,
    creates a clone.

    The command's quirks are kept, not fixed:
    - "minute" adds one minute to a date, which a date ignores: the next due
      date is the due date itself;
    - an interval the if/elif chain does not recognise (null included)
      leaves `next_due_date` as the previous iteration left it, or unbound
      on the first one, which aborts the run;
    - a null window bound reached by the chained comparison aborts the run;
    - there is no duplicate check, so a second run on the same day clones
      again;
    - clones carry no window end, so no later run selects them;
    - clones are created with `recurring=True`.
    The run is not a transaction: clones created before an abort stay. */
module Recurrence {
  import opened Wrappers
  import opened Models
  import MasterSignals
  import Signals

  /** Days one step of an interval code adds to a date; None when the
      if/elif chain matches no branch. */
  function StepDays(code: string): (r: Option<int>)
    ensures r.Some? <==> code in IntervalChoices || code == "minute"
    ensures code == "minute" ==> r == Some(0)
    ensures code == "daily" ==> r == Some(1)
    ensures code == "weekly" ==> r == Some(7)
    ensures code == "monthly" ==> r == Some(30)
  {
    if code == "minute" then Some(0)
    else if code == "daily" then Some(1)
    else if code == "weekly" then Some(7)
    else if code == "monthly" then Some(30)
    else None
  }

  /** The queryset the command iterates: recurring, with a window end that
      has not passed. A null end is never selected. */
  predicate Selected(t: Task, today: Day)
  {
    t.recurring && t.recurringEndDate.Some? && t.recurringEndDate.value >= today
  }

  function SelectedIds(tasks: map<TaskId, Task>, today: Day): set<TaskId>
  {
    set id | id in tasks && Selected(tasks[id], today)
  }

  /** The database's iteration order over the selected templates: each
      selected id exactly once, in some order the command does not fix. */
  ghost predicate ValidOrder(tasks: map<TaskId, Task>, today: Day, order: seq<TaskId>)
  {
    && (forall i, j :: 0 <= i < j < |order| ==> order[i] != order[j])
    && (forall i :: 0 <= i < |order| ==> order[i] in SelectedIds(tasks, today))
    && (forall id :: id in SelectedIds(tasks, today) ==> id in order)
  }

  datatype EngineError =
    | UnboundNextDue(template: TaskId)   // NameError: no branch ever bound next_due_date
    | NullWindowBound(template: TaskId)  // TypeError: a null date in the chained comparison

  /** What one iteration does; `carried` is the value `next_due_date`
      holds afterwards. */
  datatype Step =
    | Skip(carried: Option<Day>)
    | Clone(due: Day, carried: Option<Day>)
    | Abort(error: EngineError)

  /** `next_due_date` after the if/elif chain, given the value the variable
      held before it (None when still unbound). */
  function NextDue(due: Day, interval: Option<string>, carried: Option<Day>): (r: Option<Day>)
    ensures interval.Some? && StepDays(interval.value).Some? ==> r == Some(due + StepDays(interval.value).value)
    ensures interval.Some? && interval.value == "minute" ==> r == Some(due)
    ensures interval.None? || StepDays(interval.value).None? ==> r == carried
  {
    if interval.Some? && StepDays(interval.value).Some? then Some(due + StepDays(interval.value).value)
    else carried
  }

  /** One iteration of the loop over the selected templates. The chained
      comparison evaluates the start bound first and reaches the end bound
      only when the start bound holds; a null bound it reaches aborts. */
  function Expand(id: TaskId, t: Task, carried: Option<Day>): (s: Step)
    ensures t.dueDate.None? ==> s == Skip(carried)
    ensures t.dueDate.Some? ==>
      var next := NextDue(t.dueDate.value, t.recurringInterval, carried);
      && (next.None? ==> s == Abort(UnboundNextDue(id)))
      && (next.Some? && t.recurringStartDate.None? ==> s == Abort(NullWindowBound(id)))
      && (next.Some? && t.recurringStartDate.Some? && next.value < t.recurringStartDate.value ==> s == Skip(next))
      && (next.Some? && t.recurringStartDate.Some? && t.recurringStartDate.value <= next.value && t.recurringEndDate.None?
          ==> s == Abort(NullWindowBound(id)))
      && (next.Some? && t.recurringStartDate.Some? && t.recurringEndDate.Some? ==>
            && !s.Abort?
            && (s.Clone? <==> t.recurringStartDate.value <= next.value <= t.recurringEndDate.value))
      && (s.Skip? || s.Clone? ==> s.carried == next)
    ensures s.Abort? ==> s.error.template == id
    ensures s.Clone? ==>
      && t.recurringStartDate.Some? && t.recurringEndDate.Some?
      && t.recurringStartDate.value <= s.due <= t.recurringEndDate.value
      && s.carried == Some(s.due)
  {
    if t.dueDate.None? then Skip(carried)
    else
      var next := NextDue(t.dueDate.value, t.recurringInterval, carried);
      if next.None? then Abort(UnboundNextDue(id))
      else if t.recurringStartDate.None? then Abort(NullWindowBound(id))
      else if !(t.recurringStartDate.value <= next.value) then Skip(next)
      else if t.recurringEndDate.None? then Abort(NullWindowBound(id))
      else if next.value <= t.recurringEndDate.value then Clone(next.value, next)
      else Skip(next)
  }

  /** A template whose fields the loop body can evaluate without error. */
  predicate Configured(t: Task)
  {
    t.dueDate.None? ||
    (&& t.recurringInterval.Some? && StepDays(t.recurringInterval.value).Some?
     && t.recurringStartDate.Some? && t.recurringEndDate.Some?)
  }

  /** The next due date of a configured template with a due date. */
  function TemplateNextDue(t: Task): Day
    requires Configured(t) && t.dueDate.Some?
  {
    t.dueDate.value + StepDays(t.recurringInterval.value).value
  }

  /** A configured template with a due date yields a clone exactly when
      its next due date lies inside the window, and that clone is due on
      the next due date; the value carried in from earlier iterations
      plays no part. */
  predicate InWindow(t: Task)
    requires Configured(t) && t.dueDate.Some?
  {
    t.recurringStartDate.value <= TemplateNextDue(t) <= t.recurringEndDate.value
  }

  lemma CloneIffInWindow(id: TaskId, t: Task, carried: Option<Day>)
    requires Configured(t) && t.dueDate.Some?
    ensures Expand(id, t, carried).Clone? <==> InWindow(t)
    ensures Expand(id, t, carried).Clone? ==> Expand(id, t, carried).due == TemplateNextDue(t)
    ensures !Expand(id, t, carried).Abort?
  {
  }

  /** An unrecognised interval reuses the date the previous iteration
      computed, and aborts the run when there is none. */
  lemma UnrecognisedIntervalUsesStaleDate(id: TaskId, t: Task, carried: Option<Day>)
    requires t.dueDate.Some? && (t.recurringInterval.None? || StepDays(t.recurringInterval.value).None?)
    ensures carried.None? ==> Expand(id, t, carried) == Abort(UnboundNextDue(id))
    ensures carried.Some? && t.recurringStartDate.Some? && t.recurringEndDate.Some? ==>
      (Expand(id, t, carried).Clone? <==>
        t.recurringStartDate.value <= carried.value <= t.recurringEndDate.value)
  {
  }

  /** A template with a due date and a recognised interval but a null
      window start stops the loop where it stands: the chained comparison
      raises before anything is created for it or for any later template. */
  lemma NullStartAbortsRun(snapshot: map<TaskId, Task>, order: seq<TaskId>, today: Day,
                           tasks: map<TaskId, Task>, nextId: nat, carried: Option<Day>)
    requires forall i :: 0 <= i < |order| ==> order[i] in snapshot
    requires forall id :: id in tasks ==> id < nextId
    requires order != [] && snapshot[order[0]].dueDate.Some? && snapshot[order[0]].recurringStartDate.None?
    requires snapshot[order[0]].recurringInterval.Some? && StepDays(snapshot[order[0]].recurringInterval.value).Some?
    ensures RunFrom(snapshot, order, today, tasks, nextId, carried)
      == Engine(tasks, nextId, [], Some(NullWindowBound(order[0])))
  {
  }

  /** The clone `Task.objects.create` builds from a template: the model's
      defaults, overridden by the copied fields, the new due date, the
      recurring flag and the parent link. */
  function MakeClone(template: Task, templateId: TaskId, due: Day, today: Day): (c: Task)
    ensures c.owner == template.owner && c.title == template.title
    ensures c.description == template.description && c.assignee == template.assignee
    ensures c.category == template.category && c.priority == template.priority
    ensures c.file == template.file && c.bookmarked == template.bookmarked
    ensures c.dueDate == Some(due) && c.recurring && c.parentTask == Some(templateId)
    ensures c.recurringInterval.None? && c.recurringStartDate.None? && c.recurringEndDate.None?
    ensures !c.completed && c.createdAt == today
    ensures forall d :: !Selected(c, d)
    ensures WellFormedTask(template) ==> WellFormedTask(c)
  {
    Task(
      owner := template.owner,
      assignee := template.assignee,
      title := template.title,
      description := template.description,
      completed := false,
      createdAt := today,
      category := template.category,
      dueDate := Some(due),
      recurring := true,
      recurringInterval := None,
      recurringStartDate := None,
      recurringEndDate := None,
      file := template.file,
      bookmarked := template.bookmarked,
      priority := template.priority,
      parentTask := Some(templateId))
  }

  /** The loop's effect on the task table: the rows it added, under
      increasing ids from `nextId` on, and why it stopped early, if it did. */
  datatype Engine = Engine(tasks: map<TaskId, Task>, nextId: nat, created: seq<TaskId>, error: Option<EngineError>)

  /** `c` is a clone, made today, of a template of `snapshot`. */
  ghost predicate CloneOf(c: Task, snapshot: map<TaskId, Task>, today: Day)
  {
    && c.parentTask.Some? && c.parentTask.value in snapshot && c.dueDate.Some?
    && c == MakeClone(snapshot[c.parentTask.value], c.parentTask.value, c.dueDate.value, today)
  }

  /** Task `id` of `tasks` is a clone, made today, of a template that
      `order` lists. */
  ghost predicate IsCloneIn(tasks: map<TaskId, Task>, id: TaskId, snapshot: map<TaskId, Task>, order: seq<TaskId>, today: Day)
  {
    id in tasks && CloneOf(tasks[id], snapshot, today) && tasks[id].parentTask.value in order
  }

  /** The loop from some iteration on, over the task table `tasks` whose
      ids are all below `nextId`. `snapshot` is the queryset as fetched
      when the loop started; `carried` is `next_due_date`. Rows already in
      the table are never touched. */
  function RunFrom(snapshot: map<TaskId, Task>, order: seq<TaskId>, today: Day,
                   tasks: map<TaskId, Task>, nextId: nat, carried: Option<Day>): (r: Engine)
    requires forall i :: 0 <= i < |order| ==> order[i] in snapshot
    requires forall id :: id in tasks ==> id < nextId
    ensures forall id :: id in tasks ==> id in r.tasks && r.tasks[id] == tasks[id]
    ensures forall id :: id in r.tasks ==> id < r.nextId
    ensures forall k :: 0 <= k < |r.created| ==> r.created[k] in r.tasks
    ensures nextId <= r.nextId
    decreases |order|
  {
    if order == [] then Engine(tasks, nextId, [], None)
    else
      var id := order[0];
      match Expand(id, snapshot[id], carried)
      case Abort(e) => Engine(tasks, nextId, [], Some(e))
      case Skip(c) => RunFrom(snapshot, order[1..], today, tasks, nextId, c)
      case Clone(due, c) =>
        var rest := RunFrom(snapshot, order[1..], today, tasks[nextId := MakeClone(snapshot[id], id, due, today)], nextId + 1, c);
        rest.(created := [nextId] + rest.created)
  }

  /** What `RunFromAddsFreshIds` states of one run. */
  ghost predicate AddsFreshIds(r: Engine, tasks: map<TaskId, Task>, nextId: nat)
  {
    && (forall id :: id in r.tasks <==> id in tasks || id in r.created)
    && (forall k :: 0 <= k < |r.created| ==> nextId <= r.created[k] < r.nextId)
    && (forall j, k :: 0 <= j < k < |r.created| ==> r.created[j] < r.created[k])
  }

  /** The rows a run adds are exactly the ids it reports, all new and in
      increasing order. */
  lemma {:induction false} RunFromAddsFreshIds(snapshot: map<TaskId, Task>, order: seq<TaskId>, today: Day,
                                               tasks: map<TaskId, Task>, nextId: nat, carried: Option<Day>)
    requires forall i :: 0 <= i < |order| ==> order[i] in snapshot
    requires forall id :: id in tasks ==> id < nextId
    ensures AddsFreshIds(RunFrom(snapshot, order, today, tasks, nextId, carried), tasks, nextId)
    decreases |order|
  {
    if order != [] {
      var id := order[0];
      match Expand(id, snapshot[id], carried)
      case Abort(e) =>
      case Skip(c) =>
        RunFromSkipStep(snapshot, order, today, tasks, nextId, carried, c);
        RunFromAddsFreshIds(snapshot, order[1..], today, tasks, nextId, c);
      case Clone(due, c) =>
        var tasks1 := tasks[nextId := MakeClone(snapshot[id], id, due, today)];
        RunFromCloneStep(snapshot, order, today, tasks, nextId, carried, due, c);
        RunFromAddsFreshIds(snapshot, order[1..], today, tasks1, nextId + 1, c);
        var r1 := RunFrom(snapshot, order[1..], today, tasks1, nextId + 1, c);
        assert tasks1.Keys == tasks.Keys + {nextId};
        FreshIdsCons(r1, RunFrom(snapshot, order, today, tasks, nextId, carried), tasks, tasks1, nextId);
    }
  }

  /** A run that adds `nextId` and then what the rest of the loop adds
      adds fresh ids in increasing order. */
  lemma FreshIdsCons(r1: Engine, r: Engine, tasks: map<TaskId, Task>, tasks1: map<TaskId, Task>, nextId: nat)
    requires tasks1.Keys == tasks.Keys + {nextId}
    requires AddsFreshIds(r1, tasks1, nextId + 1) && nextId + 1 <= r1.nextId
    requires r.created == [nextId] + r1.created && r.tasks == r1.tasks && r.nextId == r1.nextId
    ensures AddsFreshIds(r, tasks, nextId)
  {
    assert forall k :: 0 < k < |r.created| ==> r.created[k] == r1.created[k - 1];
    assert forall id :: id in r.created <==> id == nextId || id in r1.created;
    forall k | 0 <= k < |r.created| ensures nextId <= r.created[k] < r.nextId {
      if k > 0 { assert r.created[k] == r1.created[k - 1]; }
    }
    forall j, k | 0 <= j < k < |r.created| ensures r.created[j] < r.created[k] {
      assert r.created[k] == r1.created[k - 1];
      if j > 0 { assert r.created[j] == r1.created[j - 1]; }
    }
  }

  /** Every row a run adds is a clone of an iterated template. */
  lemma {:induction false} RunFromAddsClones(snapshot: map<TaskId, Task>, order: seq<TaskId>, today: Day,
                                             tasks: map<TaskId, Task>, nextId: nat, carried: Option<Day>)
    requires forall i :: 0 <= i < |order| ==> order[i] in snapshot
    requires forall id :: id in tasks ==> id < nextId
    ensures forall k :: 0 <= k < |RunFrom(snapshot, order, today, tasks, nextId, carried).created| ==>
      IsCloneIn(RunFrom(snapshot, order, today, tasks, nextId, carried).tasks,
                RunFrom(snapshot, order, today, tasks, nextId, carried).created[k], snapshot, order, today)
    decreases |order|
  {
    if order != [] {
      var id := order[0];
      var rest := order[1..];
      assert forall x :: x in rest ==> x in order;
      match Expand(id, snapshot[id], carried)
      case Abort(e) =>
      case Skip(c) =>
        RunFromAddsClones(snapshot, rest, today, tasks, nextId, c);
        var r1 := RunFrom(snapshot, rest, today, tasks, nextId, c);
        assert forall k :: 0 <= k < |r1.created| ==> IsCloneIn(r1.tasks, r1.created[k], snapshot, rest, today);
        forall k | 0 <= k < |r1.created| ensures IsCloneIn(r1.tasks, r1.created[k], snapshot, order, today) {
          assert IsCloneIn(r1.tasks, r1.created[k], snapshot, rest, today);
        }
      case Clone(due, c) =>
        var tasks1 := tasks[nextId := MakeClone(snapshot[id], id, due, today)];
        RunFromAddsClones(snapshot, rest, today, tasks1, nextId + 1, c);
        var r1 := RunFrom(snapshot, rest, today, tasks1, nextId + 1, c);
        assert r1.tasks[nextId] == tasks1[nextId];
        assert IsCloneIn(r1.tasks, nextId, snapshot, order, today);
        forall k | 0 <= k < |r1.created| ensures IsCloneIn(r1.tasks, r1.created[k], snapshot, order, today) {
          assert IsCloneIn(r1.tasks, r1.created[k], snapshot, rest, today);
        }
    }
  }

  datatype RunOutcome = RunOutcome(db: Db, created: seq<TaskId>, error: Option<EngineError>)

  /** The `post_save` events of the clones, in creation order. */
  function CloneEvents(tasks: map<TaskId, Task>, created: seq<TaskId>): (evs: seq<Signals.Event>)
    requires forall k :: 0 <= k < |created| ==> created[k] in tasks
    ensures |evs| == |created|
    ensures forall k :: 0 <= k < |created| ==>
      evs[k] == MasterSignals.TaskSaved(created[k], tasks[created[k]], true)
  {
    seq(|created|, k requires 0 <= k < |created| => MasterSignals.TaskSaved(created[k], tasks[created[k]], true))
  }

  /** The notices the clones' assignees receive: for each clone with an
      assignee, in creation order, the "assigned" notice of a create. */
  function CloneNotices(tasks: map<TaskId, Task>, created: seq<TaskId>): (ns: seq<Notification>)
    requires forall k :: 0 <= k < |created| ==> created[k] in tasks
    decreases |created|
  {
    if created == [] then []
    else
      var c := created[0];
      (if tasks[c].assignee.Some? then [CloneNotice(c, tasks[c])] else [])
      + CloneNotices(tasks, created[1..])
  }

  /** The notice a clone's assignee receives. */
  function CloneNotice(id: TaskId, t: Task): Notification
    requires t.assignee.Some?
  {
    Notification(t.assignee.value, Signals.AssignedOnCreateMessage(t.title), Some(id), false)
  }

  /** Every clone with an assignee notifies that assignee, and every notice
      belongs to such a clone. */
  lemma {:induction false} CloneNoticesExactly(tasks: map<TaskId, Task>, created: seq<TaskId>)
    requires forall k :: 0 <= k < |created| ==> created[k] in tasks
    ensures forall c :: c in created && tasks[c].assignee.Some? ==> CloneNotice(c, tasks[c]) in CloneNotices(tasks, created)
    ensures forall n :: n in CloneNotices(tasks, created) ==>
      && n.task.Some? && n.task.value in created && tasks[n.task.value].assignee.Some?
      && n == CloneNotice(n.task.value, tasks[n.task.value])
    decreases |created|
  {
    if created != [] {
      CloneNoticesExactly(tasks, created[1..]);
      assert forall c :: c in created ==> c == created[0] || c in created[1..];
    }
  }

  /** The receivers, run on the clones' create events, send exactly the
      clones' notices. */
  lemma {:induction false} CloneEventsNotify(tasks: map<TaskId, Task>, created: seq<TaskId>)
    requires forall k :: 0 <= k < |created| ==> created[k] in tasks
    ensures Signals.AllWiredNotices(CloneEvents(tasks, created)) == CloneNotices(tasks, created)
    decreases |created|
  {
    if created != [] {
      var evs := CloneEvents(tasks, created);
      assert evs[1..] == CloneEvents(tasks, created[1..]);
      CloneEventsNotify(tasks, created[1..]);
    }
  }

  /** The store once the loop has written its rows. */
  function Written(db: Db, e: Engine): (r: Db)
    ensures r.tasks == e.tasks && r.nextId == e.nextId && r.log == db.log
    ensures r.users == db.users && r.categories == db.categories && r.comments == db.comments
    ensures r.notifications == db.notifications
    ensures r.conversations == db.conversations && r.messages == db.messages
  {
    Db(db.users, db.categories, e.tasks, db.comments, db.log, db.notifications,
       db.conversations, db.messages, e.nextId)
  }

  /** The loop over `order` started on the whole store. */
  function Loop(db: Db, order: seq<TaskId>, today: Day): (e: Engine)
    requires ValidOrder(db.tasks, today, order)
    requires forall id :: id in db.tasks ==> id < db.nextId
    ensures forall id :: id in e.tasks <==> id in db.tasks || id in e.created
    ensures forall k :: 0 <= k < |e.created| ==> e.created[k] in e.tasks
  {
    assert forall i :: 0 <= i < |order| ==> order[i] in SelectedIds(db.tasks, today);
    RunFromAddsFreshIds(db.tasks, order, today, db.tasks, db.nextId, None);
    RunFrom(db.tasks, order, today, db.tasks, db.nextId, None)
  }

  /** `Command.handle` on day `today`, iterating the selected templates in
      the order `order`. The receivers only append to the log and
      notification tables and the re-read they make returns the clone, so
      running them after the loop gives what running them at each `create`
      gives. */
  function Run(db: Db, order: seq<TaskId>, today: Day): (r: RunOutcome)
    requires ValidOrder(db.tasks, today, order)
    requires forall id :: id in db.tasks ==> id < db.nextId
    ensures r.db.categories == db.categories && r.db.comments == db.comments && r.db.users == db.users
    ensures r.db.conversations == db.conversations && r.db.messages == db.messages
    ensures forall id :: id in r.db.tasks <==> id in db.tasks || id in r.created
    ensures forall k :: 0 <= k < |r.created| ==> r.created[k] in r.db.tasks
    ensures r.db.notifications == db.notifications + CloneNotices(r.db.tasks, r.created)
  {
    var e := Loop(db, order, today);
    var written := Written(db, e);
    var evs := CloneEvents(e.tasks, e.created);
    assert forall k :: 0 <= k < |evs| ==> Signals.Saved(written, evs[k]);
    CloneEventsNotify(e.tasks, e.created);
    RunOutcome(Signals.DispatchAll(written, evs), e.created, e.error)
  }

  /** What a run is made of: the loop's rows and the receivers' entries. */
  lemma RunUnfolds(db: Db, order: seq<TaskId>, today: Day)
    requires ValidOrder(db.tasks, today, order)
    requires forall id :: id in db.tasks ==> id < db.nextId
    ensures Run(db, order, today).db.tasks == Loop(db, order, today).tasks
    ensures Run(db, order, today).db.nextId == Loop(db, order, today).nextId
    ensures Run(db, order, today).created == Loop(db, order, today).created
    ensures Run(db, order, today).error == Loop(db, order, today).error
    ensures |Run(db, order, today).db.log| == |db.log| + |Loop(db, order, today).created|
    ensures Run(db, order, today).db.log[..|db.log|] == db.log
    ensures forall k :: 0 <= k < |Loop(db, order, today).created| ==>
      Run(db, order, today).db.log[|db.log| + k]
        == MasterSignals.EntryFor(MasterSignals.TaskSaved(Loop(db, order, today).created[k],
             Loop(db, order, today).tasks[Loop(db, order, today).created[k]], true))
  {
    var e := Loop(db, order, today);
    var written := Written(db, e);
    var evs := CloneEvents(e.tasks, e.created);
    assert forall k :: 0 <= k < |evs| ==> Signals.Saved(written, evs[k]);
    var d := Signals.DispatchAll(written, evs);
    assert Run(db, order, today) == RunOutcome(d, e.created, e.error);
    assert Signals.Appends(written, d, evs);
  }

  /** Templates are never modified, and every row a run adds is a new
      clone, made today, of a selected template. */
  lemma RunAddsOnlyClones(db: Db, order: seq<TaskId>, today: Day)
    requires ValidOrder(db.tasks, today, order)
    requires forall id :: id in db.tasks ==> id < db.nextId
    ensures forall id :: id in db.tasks ==>
      id in Run(db, order, today).db.tasks && Run(db, order, today).db.tasks[id] == db.tasks[id]
    ensures forall id :: id in Run(db, order, today).db.tasks ==> id < Run(db, order, today).db.nextId
    ensures forall k :: 0 <= k < |Run(db, order, today).created| ==> Run(db, order, today).created[k] !in db.tasks
    ensures forall j, k :: 0 <= j < k < |Run(db, order, today).created| ==>
      Run(db, order, today).created[j] != Run(db, order, today).created[k]
    ensures forall k :: 0 <= k < |Run(db, order, today).created| ==>
      IsCloneIn(Run(db, order, today).db.tasks, Run(db, order, today).created[k], db.tasks, order, today)
  {
    assert forall i :: 0 <= i < |order| ==> order[i] in SelectedIds(db.tasks, today);
    RunUnfolds(db, order, today);
    RunFromAddsFreshIds(db.tasks, order, today, db.tasks, db.nextId, None);
    RunFromAddsClones(db.tasks, order, today, db.tasks, db.nextId, None);
  }

  /** Each clone's creation is logged, in creation order, as a `task_add`
      entry carrying the clone's id; earlier entries stay. */
  lemma RunLogsEachClone(db: Db, order: seq<TaskId>, today: Day)
    requires ValidOrder(db.tasks, today, order)
    requires forall id :: id in db.tasks ==> id < db.nextId
    ensures |Run(db, order, today).db.log| == |db.log| + |Run(db, order, today).created|
    ensures Run(db, order, today).db.log[..|db.log|] == db.log
    ensures forall j :: |db.log| <= j < |Run(db, order, today).db.log| ==>
      && Run(db, order, today).db.log[j].action == TaskAdd
      && Run(db, order, today).db.log[j].objectId == Run(db, order, today).created[j - |db.log|]
  {
    RunUnfolds(db, order, today);
    var e := Loop(db, order, today);
    var r := Run(db, order, today);
    assert r.created == e.created;
    TaskAddEntries(r.db.log, |db.log|, e.created, e.tasks);
  }

  /** Entries for created tasks are `task_add` entries carrying their ids. */
  lemma TaskAddEntries(log: seq<LogEntry>, n: nat, created: seq<TaskId>, tasks: map<TaskId, Task>)
    requires forall k :: 0 <= k < |created| ==> created[k] in tasks
    requires n + |created| == |log|
    requires forall k :: 0 <= k < |created| ==>
      log[n + k] == MasterSignals.EntryFor(MasterSignals.TaskSaved(created[k], tasks[created[k]], true))
    ensures forall j :: n <= j < |log| ==> log[j].action == TaskAdd && log[j].objectId == created[j - n]
  {
    forall j | n <= j < |log| ensures log[j].action == TaskAdd && log[j].objectId == created[j - n] {
      var k := j - n;
      assert log[n + k] == MasterSignals.EntryFor(MasterSignals.TaskSaved(created[k], tasks[created[k]], true));
    }
  }

  /** The templates of `order` that yield a clone when every one of them
      is configured. */
  function Qualifying(snapshot: map<TaskId, Task>, order: seq<TaskId>): (q: seq<TaskId>)
    requires forall i :: 0 <= i < |order| ==> order[i] in snapshot
    requires forall i :: 0 <= i < |order| ==> Configured(snapshot[order[i]])
    ensures forall k :: 0 <= k < |q| ==> q[k] in snapshot && snapshot[q[k]].dueDate.Some?
    ensures forall k :: 0 <= k < |q| ==> q[k] in order
  {
    if order == [] then []
    else
      var t := snapshot[order[0]];
      var rest := Qualifying(snapshot, order[1..]);
      if t.dueDate.Some? && InWindow(t) then [order[0]] + rest else rest
  }

  /** The rows stored under `ids`, in order. */
  function Rows(tasks: map<TaskId, Task>, ids: seq<TaskId>): (rows: seq<Task>)
    requires forall k :: 0 <= k < |ids| ==> ids[k] in tasks
    ensures |rows| == |ids|
    ensures forall k :: 0 <= k < |ids| ==> rows[k] == tasks[ids[k]]
  {
    if ids == [] then [] else [tasks[ids[0]]] + Rows(tasks, ids[1..])
  }

  /** The clones the qualifying templates `q` call for, in order: each
      due on its template's next due date. */
  function ExpectedClones(snapshot: map<TaskId, Task>, q: seq<TaskId>, today: Day): (cs: seq<Task>)
    requires forall k :: 0 <= k < |q| ==> q[k] in snapshot
    requires forall k :: 0 <= k < |q| ==> Configured(snapshot[q[k]]) && snapshot[q[k]].dueDate.Some?
    ensures |cs| == |q|
    ensures forall k :: 0 <= k < |q| ==>
      cs[k] == MakeClone(snapshot[q[k]], q[k], TemplateNextDue(snapshot[q[k]]), today)
  {
    if q == [] then []
    else [MakeClone(snapshot[q[0]], q[0], TemplateNextDue(snapshot[q[0]]), today)] + ExpectedClones(snapshot, q[1..], today)
  }

  /** One cloning iteration followed by the rest of the loop. */
  lemma RunFromCloneStep(snapshot: map<TaskId, Task>, order: seq<TaskId>, today: Day,
                         tasks: map<TaskId, Task>, nextId: nat, carried: Option<Day>, due: Day, c: Option<Day>)
    requires forall i :: 0 <= i < |order| ==> order[i] in snapshot
    requires forall id :: id in tasks ==> id < nextId
    requires order != [] && Expand(order[0], snapshot[order[0]], carried) == Clone(due, c)
    ensures forall i :: 0 <= i < |order[1..]| ==> order[1..][i] in snapshot
    ensures var r := RunFrom(snapshot, order, today, tasks, nextId, carried);
      var r1 := RunFrom(snapshot, order[1..], today, tasks[nextId := MakeClone(snapshot[order[0]], order[0], due, today)], nextId + 1, c);
      r.created == [nextId] + r1.created && r.tasks == r1.tasks && r.error == r1.error && r.nextId == r1.nextId
  {
    assert forall i :: 0 <= i < |order[1..]| ==> order[1..][i] == order[i + 1];
  }

  /** One skipping iteration followed by the rest of the loop. */
  lemma RunFromSkipStep(snapshot: map<TaskId, Task>, order: seq<TaskId>, today: Day,
                        tasks: map<TaskId, Task>, nextId: nat, carried: Option<Day>, c: Option<Day>)
    requires forall i :: 0 <= i < |order| ==> order[i] in snapshot
    requires forall id :: id in tasks ==> id < nextId
    requires order != [] && Expand(order[0], snapshot[order[0]], carried) == Skip(c)
    ensures forall i :: 0 <= i < |order[1..]| ==> order[1..][i] in snapshot
    ensures RunFrom(snapshot, order, today, tasks, nextId, carried) == RunFrom(snapshot, order[1..], today, tasks, nextId, c)
  {
    assert forall i :: 0 <= i < |order[1..]| ==> order[1..][i] == order[i + 1];
  }

  /** The rows under `[x] + xs` are the row under `x`, then the rest. */
  lemma RowsCons(tasks: map<TaskId, Task>, x: TaskId, xs: seq<TaskId>)
    requires x in tasks && forall k :: 0 <= k < |xs| ==> xs[k] in tasks
    ensures Rows(tasks, [x] + xs) == [tasks[x]] + Rows(tasks, xs)
  {
    assert ([x] + xs)[1..] == xs;
  }

  /** The clones `[x] + q` calls for are the clone of `x`, then the rest. */
  lemma ExpectedClonesCons(snapshot: map<TaskId, Task>, x: TaskId, q: seq<TaskId>, today: Day)
    requires x in snapshot && Configured(snapshot[x]) && snapshot[x].dueDate.Some?
    requires forall k :: 0 <= k < |q| ==> q[k] in snapshot
    requires forall k :: 0 <= k < |q| ==> Configured(snapshot[q[k]]) && snapshot[q[k]].dueDate.Some?
    ensures ExpectedClones(snapshot, [x] + q, today)
      == [MakeClone(snapshot[x], x, TemplateNextDue(snapshot[x]), today)] + ExpectedClones(snapshot, q, today)
  {
    assert ([x] + q)[1..] == q;
  }

  /** The qualifying templates of a non-empty order: the first one if its
      next due date is in its window, then those of the rest. */
  lemma QualifyingCons(snapshot: map<TaskId, Task>, order: seq<TaskId>)
    requires order != []
    requires forall i :: 0 <= i < |order| ==> order[i] in snapshot
    requires forall i :: 0 <= i < |order| ==> Configured(snapshot[order[i]])
    ensures forall i :: 0 <= i < |order[1..]| ==> order[1..][i] in snapshot && Configured(snapshot[order[1..][i]])
    ensures var t := snapshot[order[0]];
      Qualifying(snapshot, order)
        == (if t.dueDate.Some? && InWindow(t) then [order[0]] else []) + Qualifying(snapshot, order[1..])
  {
    assert forall i :: 0 <= i < |order[1..]| ==> order[1..][i] == order[i + 1];
  }

  /** The cloning case of `RunClonesExactlyQualifying`, given its claim
      for the rest of the loop. */
  lemma CloneCaseRows(snapshot: map<TaskId, Task>, order: seq<TaskId>, today: Day,
                      tasks: map<TaskId, Task>, nextId: nat, carried: Option<Day>, due: Day, c: Option<Day>)
    requires forall i :: 0 <= i < |order| ==> order[i] in snapshot
    requires forall i :: 0 <= i < |order| ==> Configured(snapshot[order[i]])
    requires forall id :: id in tasks ==> id < nextId
    requires order != [] && Expand(order[0], snapshot[order[0]], carried) == Clone(due, c)
    requires forall i :: 0 <= i < |order[1..]| ==> order[1..][i] in snapshot && Configured(snapshot[order[1..][i]])
    requires var r1 := RunFrom(snapshot, order[1..], today,
                               tasks[nextId := MakeClone(snapshot[order[0]], order[0], due, today)], nextId + 1, c);
      r1.error.None? && Rows(r1.tasks, r1.created) == ExpectedClones(snapshot, Qualifying(snapshot, order[1..]), today)
    ensures RunFrom(snapshot, order, today, tasks, nextId, carried).error.None?
    ensures Rows(RunFrom(snapshot, order, today, tasks, nextId, carried).tasks,
                 RunFrom(snapshot, order, today, tasks, nextId, carried).created)
         == ExpectedClones(snapshot, Qualifying(snapshot, order), today)
  {
    var id := order[0];
    var t := snapshot[id];
    var rest := order[1..];
    CloneIffInWindow(id, t, carried);
    var clone := MakeClone(t, id, due, today);
    var r1 := RunFrom(snapshot, rest, today, tasks[nextId := clone], nextId + 1, c);
    RunFromCloneStep(snapshot, order, today, tasks, nextId, carried, due, c);
    QualifyingCons(snapshot, order);
    var q1 := Qualifying(snapshot, rest);
    assert Qualifying(snapshot, order) == [id] + q1;
    assert r1.tasks[nextId] == clone;
    RowsCons(r1.tasks, nextId, r1.created);
    ExpectedClonesCons(snapshot, id, q1, today);
  }

  /** With configured templates the loop never aborts, and the rows it
      adds are, in iteration order, the clones of the templates whose next
      due date lies in their window, each due on that date. */
  lemma {:induction false} RunClonesExactlyQualifying(snapshot: map<TaskId, Task>, order: seq<TaskId>, today: Day,
                                                      tasks: map<TaskId, Task>, nextId: nat, carried: Option<Day>)
    requires forall i :: 0 <= i < |order| ==> order[i] in snapshot
    requires forall i :: 0 <= i < |order| ==> Configured(snapshot[order[i]])
    requires forall id :: id in tasks ==> id < nextId
    ensures RunFrom(snapshot, order, today, tasks, nextId, carried).error.None?
    ensures Rows(RunFrom(snapshot, order, today, tasks, nextId, carried).tasks,
                 RunFrom(snapshot, order, today, tasks, nextId, carried).created)
         == ExpectedClones(snapshot, Qualifying(snapshot, order), today)
    decreases |order|
  {
    if order != [] {
      var id := order[0];
      var t := snapshot[id];
      var rest := order[1..];
      QualifyingCons(snapshot, order);
      if t.dueDate.Some? {
        CloneIffInWindow(id, t, carried);
      }
      match Expand(id, t, carried)
      case Abort(_) =>
        assert false;
      case Skip(c) =>
        RunFromSkipStep(snapshot, order, today, tasks, nextId, carried, c);
        RunClonesExactlyQualifying(snapshot, rest, today, tasks, nextId, c);
      case Clone(due, c) =>
        RunClonesExactlyQualifying(snapshot, rest, today, tasks[nextId := MakeClone(t, id, due, today)], nextId + 1, c);
        CloneCaseRows(snapshot, order, today, tasks, nextId, carried, due, c);
    }
  }

  /** Clones are never selected, so a run leaves the set of selected
      templates as it was, on every day: a later run never expands a clone. */
  lemma RunKeepsSelection(db: Db, order: seq<TaskId>, today: Day, later: Day)
    requires ValidOrder(db.tasks, today, order)
    requires forall id :: id in db.tasks ==> id < db.nextId
    ensures SelectedIds(Run(db, order, today).db.tasks, later) == SelectedIds(db.tasks, later)
  {
    var r := Run(db, order, today);
    RunAddsOnlyClones(db, order, today);
    forall id | id in r.db.tasks && id !in db.tasks
      ensures !Selected(r.db.tasks[id], later)
    {
      var k :| 0 <= k < |r.created| && r.created[k] == id;
      assert IsCloneIn(r.db.tasks, id, db.tasks, order, today);
    }
  }

  /** The loop adds as many rows as it reports. */
  lemma LoopGrowsByCreated(db: Db, order: seq<TaskId>, today: Day)
    requires ValidOrder(db.tasks, today, order)
    requires forall id :: id in db.tasks ==> id < db.nextId
    ensures |Loop(db, order, today).tasks| == |db.tasks| + |Loop(db, order, today).created|
  {
    assert forall i :: 0 <= i < |order| ==> order[i] in SelectedIds(db.tasks, today);
    var e := Loop(db, order, today);
    RunFromAddsFreshIds(db.tasks, order, today, db.tasks, db.nextId, None);
    GrowthCard(db.tasks.Keys, e.created, e.tasks.Keys, db.nextId);
  }

  /** Adding ids in increasing order, all at or above a bound that the old
      ids are below, adds one element per id. */
  lemma GrowthCard(before: set<TaskId>, added: seq<TaskId>, after: set<TaskId>, bound: nat)
    requires forall id :: id in before ==> id < bound
    requires forall k :: 0 <= k < |added| ==> bound <= added[k]
    requires forall j, k :: 0 <= j < k < |added| ==> added[j] < added[k]
    requires forall id :: id in after <==> id in before || id in added
    ensures |after| == |before| + |added|
  {
    var s := set k | 0 <= k < |added| :: added[k];
    assert after == before + s by {
      forall id | id in added ensures id in s {
        var k :| 0 <= k < |added| && added[k] == id;
      }
    }
    assert before !! s;
    DistinctCard(added);
  }

  /** The loop-level form of `RunClonesEachQualifyingTemplate`. */
  lemma LoopClonesEachQualifyingTemplate(db: Db, order: seq<TaskId>, today: Day)
    requires ValidOrder(db.tasks, today, order)
    requires forall id :: id in db.tasks ==> id < db.nextId
    requires forall i :: 0 <= i < |order| ==> Configured(db.tasks[order[i]])
    ensures Loop(db, order, today).error.None?
    ensures |Loop(db, order, today).created| == |Qualifying(db.tasks, order)|
    ensures forall k :: 0 <= k < |Qualifying(db.tasks, order)| ==>
      Loop(db, order, today).tasks[Loop(db, order, today).created[k]]
        == MakeClone(db.tasks[Qualifying(db.tasks, order)[k]], Qualifying(db.tasks, order)[k],
                     TemplateNextDue(db.tasks[Qualifying(db.tasks, order)[k]]), today)
  {
    assert forall i :: 0 <= i < |order| ==> order[i] in SelectedIds(db.tasks, today);
    RunClonesExactlyQualifying(db.tasks, order, today, db.tasks, db.nextId, None);
    var e := Loop(db, order, today);
    var q := Qualifying(db.tasks, order);
    var rows := Rows(e.tasks, e.created);
    var expected := ExpectedClones(db.tasks, q, today);
    assert rows == expected;
    forall k | 0 <= k < |q|
      ensures e.tasks[e.created[k]] == MakeClone(db.tasks[q[k]], q[k], TemplateNextDue(db.tasks[q[k]]), today)
    {
      assert rows[k] == expected[k];
    }
  }

  /** With configured templates a run never aborts and creates one clone
      per template whose next due date lies in its window, due on that
      date, in iteration order. */
  lemma RunClonesEachQualifyingTemplate(db: Db, order: seq<TaskId>, today: Day)
    requires ValidOrder(db.tasks, today, order)
    requires forall id :: id in db.tasks ==> id < db.nextId
    requires forall i :: 0 <= i < |order| ==> Configured(db.tasks[order[i]])
    ensures Run(db, order, today).error.None?
    ensures |Run(db, order, today).created| == |Qualifying(db.tasks, order)|
    ensures |Run(db, order, today).db.tasks| == |db.tasks| + |Qualifying(db.tasks, order)|
    ensures forall k :: 0 <= k < |Qualifying(db.tasks, order)| ==>
      Run(db, order, today).db.tasks[Run(db, order, today).created[k]]
        == MakeClone(db.tasks[Qualifying(db.tasks, order)[k]], Qualifying(db.tasks, order)[k],
                     TemplateNextDue(db.tasks[Qualifying(db.tasks, order)[k]]), today)
  {
    RunUnfolds(db, order, today);
    LoopGrowsByCreated(db, order, today);
    LoopClonesEachQualifyingTemplate(db, order, today);
  }

  lemma {:induction false} DistinctCard(xs: seq<TaskId>)
    requires forall j, k :: 0 <= j < k < |xs| ==> xs[j] != xs[k]
    ensures |set k | 0 <= k < |xs| :: xs[k]| == |xs|
  {
    if xs != [] {
      var tail := xs[1..];
      DistinctCard(tail);
      assert (set k | 0 <= k < |xs| :: xs[k]) == {xs[0]} + (set k | 0 <= k < |tail| :: tail[k]) by {
        forall k | 0 <= k < |xs| ensures xs[k] in {xs[0]} + (set k | 0 <= k < |tail| :: tail[k]) {
          if k > 0 { assert xs[k] == tail[k - 1]; }
        }
      }
      assert xs[0] !in (set k | 0 <= k < |tail| :: tail[k]);
    }
  }

  /** After a run the same templates are selected, unchanged, so the
      same iteration order is valid for the next run. */
  lemma RunKeepsTemplates(db: Db, order: seq<TaskId>, today: Day)
    requires ValidOrder(db.tasks, today, order)
    requires forall id :: id in db.tasks ==> id < db.nextId
    ensures ValidOrder(Run(db, order, today).db.tasks, today, order)
    ensures forall id :: id in Run(db, order, today).db.tasks ==> id < Run(db, order, today).db.nextId
    ensures forall i :: 0 <= i < |order| ==>
      order[i] in db.tasks && order[i] in Run(db, order, today).db.tasks
      && Run(db, order, today).db.tasks[order[i]] == db.tasks[order[i]]
  {
    RunKeepsSelection(db, order, today, today);
    RunAddsOnlyClones(db, order, today);
    assert forall i :: 0 <= i < |order| ==> order[i] in SelectedIds(db.tasks, today);
  }

  /** A run does not take earlier runs into account: running it again the
      same day clones the same templates again, under new ids, so each
      clone of the first run has an identical twin from the second. */
  lemma RunIsNotIdempotent(db: Db, order: seq<TaskId>, today: Day)
    requires ValidOrder(db.tasks, today, order)
    requires forall id :: id in db.tasks ==> id < db.nextId
    requires forall i :: 0 <= i < |order| ==> Configured(db.tasks[order[i]])
    ensures ValidOrder(Run(db, order, today).db.tasks, today, order)
    ensures forall id :: id in Run(db, order, today).db.tasks ==> id < Run(db, order, today).db.nextId
    ensures var r1 := Run(db, order, today);
      var r2 := Run(r1.db, order, today);
      && |r2.created| == |r1.created|
      && forall k :: 0 <= k < |r1.created| ==>
           && r1.created[k] in r2.db.tasks && r2.created[k] in r2.db.tasks
           && r1.created[k] != r2.created[k]
           && r2.db.tasks[r1.created[k]] == r2.db.tasks[r2.created[k]]
  {
    var r1 := Run(db, order, today);
    RunKeepsTemplates(db, order, today);
    RunClonesEachQualifyingTemplate(db, order, today);
    var r2 := Run(r1.db, order, today);
    RunClonesEachQualifyingTemplate(r1.db, order, today);
    RunAddsOnlyClones(r1.db, order, today);
    QualifyingDependsOnTemplatesOnly(db.tasks, r1.db.tasks, order);
    var q := Qualifying(db.tasks, order);
    forall k | 0 <= k < |r1.created|
      ensures && r1.created[k] in r2.db.tasks && r2.created[k] in r2.db.tasks
              && r1.created[k] != r2.created[k]
              && r2.db.tasks[r1.created[k]] == r2.db.tasks[r2.created[k]]
    {
      var t := db.tasks[q[k]];
      var clone := MakeClone(t, q[k], TemplateNextDue(t), today);
      assert r1.db.tasks[r1.created[k]] == clone;
      assert r1.db.tasks[q[k]] == t;
      assert r2.db.tasks[r2.created[k]] == clone;
      assert r1.created[k] in r1.db.tasks;
      assert r2.created[k] !in r1.db.tasks;
      assert r2.db.tasks[r1.created[k]] == r1.db.tasks[r1.created[k]];
    }
  }

  lemma {:induction false} QualifyingDependsOnTemplatesOnly(s1: map<TaskId, Task>, s2: map<TaskId, Task>, order: seq<TaskId>)
    requires forall i :: 0 <= i < |order| ==> order[i] in s1 && order[i] in s2 && s1[order[i]] == s2[order[i]]
    requires forall i :: 0 <= i < |order| ==> Configured(s1[order[i]])
    ensures Qualifying(s1, order) == Qualifying(s2, order)
    decreases |order|
  {
    if order != [] {
      QualifyingDependsOnTemplatesOnly(s1, s2, order[1..]);
    }
  }
}

=== FILE: signals.dfy ===
/** The receivers of the `todo` tree (todo/todo_project/signals.py):
    the four activity-log receivers of the `TooDoo-master` tree, unchanged, plus
    `log_task_assignment`, which notifies assignees.

    `log_task_assignment` reads the "previous" assignee with a fresh query
    inside `post_save`, that is after the row has been written. The model
    keeps the decision (`AssignmentNotices`, with the previous assignee as a
    parameter) apart from the wiring (`Dispatch`, where the re-read returns
    the row just saved), so both can be stated. */
module Signals {
  import opened Wrappers
  import opened Models
  import MasterSignals

  type Event = MasterSignals.Event

  function AssignedOnCreateMessage(title: string): string
  {
    "You have been assigned to: " + title
  }

  function AssignedMessage(title: string): string
  {
    "You have been assigned to: '" + title + "'"
  }

  function UnassignedMessage(title: string): string
  {
    "You have been unassigned from: '" + title + "'"
  }

  /** The notifications `log_task_assignment` creates for a save of task
      `id`, given the assignee before (`prev`) and after (`cur`) the save. */
  function AssignmentNotices(id: TaskId, title: string, created: bool, prev: Option<UserId>, cur: Option<UserId>)
    : (ns: seq<Notification>)
    ensures |ns| <= 2
    ensures forall i :: 0 <= i < |ns| ==> ns[i].task == Some(id) && !ns[i].read
    ensures created ==>
      && (|ns| == 1 <==> cur.Some?) && (|ns| == 0 <==> cur.None?)
      && (cur.Some? ==> ns[0] == Notification(cur.value, AssignedOnCreateMessage(title), Some(id), false))
    ensures !created && prev == cur ==> ns == []
    ensures !created && prev != cur ==>
      && |ns| == (if prev.Some? then 1 else 0) + (if cur.Some? then 1 else 0)
      && (prev.Some? ==> ns[0] == Notification(prev.value, UnassignedMessage(title), Some(id), false))
      && (cur.Some? ==> ns[|ns| - 1] == Notification(cur.value, AssignedMessage(title), Some(id), false))
  {
    if created then
      if cur.Some? then [Notification(cur.value, AssignedOnCreateMessage(title), Some(id), false)] else []
    else if prev == cur then []
    else
      (if prev.Some? then [Notification(prev.value, UnassignedMessage(title), Some(id), false)] else [])
      + (if cur.Some? then [Notification(cur.value, AssignedMessage(title), Some(id), false)] else [])
  }

  /** An update that really moves a task from one user to another notifies
      each of them exactly once. */
  lemma ReassignmentNotifiesBoth(id: TaskId, title: string, a: UserId, b: UserId)
    requires a != b
    ensures var ns := AssignmentNotices(id, title, false, Some(a), Some(b));
      && |ns| == 2
      && (set i | 0 <= i < |ns| && ns[i].user == a) == {0}
      && (set i | 0 <= i < |ns| && ns[i].user == b) == {1}
      && ns[0].message == UnassignedMessage(title) && ns[1].message == AssignedMessage(title)
  {
    var ns := AssignmentNotices(id, title, false, Some(a), Some(b));
    assert (set i | 0 <= i < |ns| && ns[i].user == a) == {0};
    assert (set i | 0 <= i < |ns| && ns[i].user == b) == {1};
  }

  /** Creation never produces an "unassigned" notice. */
  lemma CreationNeverUnassigns(id: TaskId, title: string, prev: Option<UserId>, cur: Option<UserId>)
    ensures forall n :: n in AssignmentNotices(id, title, true, prev, cur) ==> n.message != UnassignedMessage(title)
  {
    var ns := AssignmentNotices(id, title, true, prev, cur);
    if cur.Some? {
      assert ns == [Notification(cur.value, AssignedOnCreateMessage(title), Some(id), false)];
      assert AssignedOnCreateMessage(title)[14] == 'a';
      assert UnassignedMessage(title)[14] == 'u';
    }
  }

  /** Append `ns` to the notification table; nothing else changes. */
  function Notify(db: Db, ns: seq<Notification>): (r: Db)
    ensures r.notifications == db.notifications + ns
    ensures r.(notifications := db.notifications) == db
  {
    db.(notifications := db.notifications + ns)
  }

  /** The assignee `Task.objects.get(pk=id)` returns inside `post_save`. */
  function Reread(db: Db, id: TaskId): Option<UserId>
    requires id in db.tasks
  {
    db.tasks[id].assignee
  }

  /** `post_save` is sent after the row is written: the store holds the
      saved instance under its id. */
  predicate Saved(db: Db, ev: Event)
  {
    ev.TaskSaved? ==> ev.taskId in db.tasks && db.tasks[ev.taskId] == ev.task
  }

  /** The notices the receivers, as wired, send for one event: the
      "assigned" notice of a create with an assignee, and nothing else. */
  function WiredNotices(ev: Event): (ns: seq<Notification>)
    ensures |ns| <= 1
    ensures |ns| == 1 <==> ev.TaskSaved? && ev.created && ev.task.assignee.Some?
  {
    if ev.TaskSaved? && ev.created && ev.task.assignee.Some? then
      [Notification(ev.task.assignee.value, AssignedOnCreateMessage(ev.task.title), Some(ev.taskId), false)]
    else []
  }

  /** The wired notices of a series of events, in order. */
  function AllWiredNotices(evs: seq<Event>): (ns: seq<Notification>)
    decreases |evs|
  {
    if evs == [] then [] else WiredNotices(evs[0]) + AllWiredNotices(evs[1..])
  }

  /** Events that are no create send no notice. */
  lemma {:induction false} NoCreatesNoNotices(evs: seq<Event>)
    requires forall k :: 0 <= k < |evs| ==> !(evs[k].TaskSaved? && evs[k].created)
    ensures AllWiredNotices(evs) == []
    decreases |evs|
  {
    if evs != [] {
      assert !(evs[0].TaskSaved? && evs[0].created);
      forall k | 0 <= k < |evs[1..]| ensures !(evs[1..][k].TaskSaved? && evs[1..][k].created) {
        assert evs[1..][k] == evs[k + 1];
      }
      NoCreatesNoNotices(evs[1..]);
    }
  }

  /** Run the receivers registered for one event, as they are wired:
      the activity entry first, then the assignment notices computed from
      the re-read previous assignee. */
  function Dispatch(db: Db, ev: Event): (r: Db)
    requires Saved(db, ev)
    ensures |r.log| == |db.log| + 1 && r.log[..|db.log|] == db.log
    ensures r.log[|db.log|] == MasterSignals.EntryFor(ev)
    ensures |r.notifications| >= |db.notifications|
    ensures r.notifications[..|db.notifications|] == db.notifications
    ensures ev.TaskSaved? && ev.created && ev.task.assignee.Some? ==>
      r.notifications == db.notifications
        + [Notification(ev.task.assignee.value, AssignedOnCreateMessage(ev.task.title), Some(ev.taskId), false)]
    ensures !(ev.TaskSaved? && ev.created && ev.task.assignee.Some?) ==> r.notifications == db.notifications
    ensures r.(log := db.log, notifications := db.notifications) == db
    ensures r.tasks == db.tasks && r.nextId == db.nextId && r.users == db.users
    ensures r.categories == db.categories && r.comments == db.comments
    ensures r.conversations == db.conversations && r.messages == db.messages
  {
    var logged := MasterSignals.Dispatch(db, ev);
    match ev
    case TaskSaved(id, t, created) =>
      Notify(logged, AssignmentNotices(id, t.title, created, Reread(db, id), t.assignee))
    case _ => logged
  }

  /** Run the receivers for a series of events, in order. The receivers
      write no task rows, so every event stays `Saved`. */
  function DispatchAll(db: Db, evs: seq<Event>): (r: Db)
    requires forall k :: 0 <= k < |evs| ==> Saved(db, evs[k])
    ensures Appends(db, r, evs)
    ensures r.tasks == db.tasks && r.nextId == db.nextId && r.users == db.users
    ensures r.categories == db.categories && r.comments == db.comments
    ensures r.conversations == db.conversations && r.messages == db.messages
    decreases |evs|
  {
    if evs == [] then db
    else
      var db1 := Dispatch(db, evs[0]);
      assert db1.tasks == db.tasks;
      forall k | 0 <= k < |evs[1..]| ensures Saved(db1, evs[1..][k]) {
        assert evs[1..][k] == evs[k + 1];
        assert Saved(db, evs[k + 1]);
      }
      var r := DispatchAll(db1, evs[1..]);
      assert AllWiredNotices([evs[0]]) == WiredNotices(evs[0]);
      AppendsCons(db, db1, r, evs);
      r
  }

  /** `r` is `db` with one log entry per event of `evs` and the wired
      notices of `evs` appended, and nothing else changed. */
  ghost predicate Appends(db: Db, r: Db, evs: seq<Event>)
  {
    && |r.log| == |db.log| + |evs| && r.log[..|db.log|] == db.log
    && (forall k :: 0 <= k < |evs| ==> r.log[|db.log| + k] == MasterSignals.EntryFor(evs[k]))
    && r.notifications == db.notifications + AllWiredNotices(evs)
    && r.(log := db.log, notifications := db.notifications) == db
  }

  /** Dispatching the first event and then the rest appends for all. */
  lemma AppendsCons(db: Db, db1: Db, r: Db, evs: seq<Event>)
    requires evs != []
    requires Appends(db, db1, [evs[0]]) && Appends(db1, r, evs[1..])
    ensures Appends(db, r, evs)
  {
    assert r.log[..|db.log|] == r.log[..|db1.log|][..|db.log|];
    forall k | 0 <= k < |evs| ensures r.log[|db.log| + k] == MasterSignals.EntryFor(evs[k]) {
      if k == 0 {
        assert r.log[|db.log|] == db1.log[|db.log|];
      } else {
        assert r.log[|db1.log| + (k - 1)] == MasterSignals.EntryFor(evs[1..][k - 1]);
      }
    }
    assert AllWiredNotices([evs[0]]) == WiredNotices(evs[0]) + AllWiredNotices([]);
    assert r.notifications == db.notifications + WiredNotices(evs[0]) + AllWiredNotices(evs[1..]);
    assert WiredNotices(evs[0]) + AllWiredNotices(evs[1..]) == AllWiredNotices(evs);
  }

  /** The two trees' receivers log exactly the same entries. */
  lemma SameLogAsMasterTree(db: Db, ev: Event)
    requires Saved(db, ev)
    ensures Dispatch(db, ev).log == MasterSignals.Dispatch(db, ev).log
  {
  }

  /** As wired, an update never notifies anyone: the re-read "previous"
      assignee is the one just saved. A create notifies the assignee iff
      one is set. */
  lemma WiredNotifiesOnlyOnCreate(db: Db, ev: Event)
    requires Saved(db, ev)
    ensures var r := Dispatch(db, ev);
      |r.notifications| == |db.notifications|
        + (if ev.TaskSaved? && ev.created && ev.task.assignee.Some? then 1 else 0)
  {
  }

  /** The receivers with the previous assignee read from `before`, the
      store as it was before the save: what `log_task_assignment` is
      written to compare. */
  function DispatchReadingBefore(before: Db, db: Db, ev: Event): (r: Db)
    requires Saved(db, ev)
    requires ev.TaskSaved? && !ev.created ==> ev.taskId in before.tasks
    ensures r.log == Dispatch(db, ev).log
    ensures r.tasks == db.tasks && r.nextId == db.nextId
    ensures ev.TaskSaved? && !ev.created ==>
      r.notifications == db.notifications
        + AssignmentNotices(ev.taskId, ev.task.title, false, before.tasks[ev.taskId].assignee, ev.task.assignee)
    ensures !(ev.TaskSaved? && !ev.created) ==> r == Dispatch(db, ev)
  {
    match ev
    case TaskSaved(id, t, created) =>
      if created then Dispatch(db, ev)
      else Notify(MasterSignals.Dispatch(db, ev), AssignmentNotices(id, t.title, false, before.tasks[id].assignee, t.assignee))
    case _ => Dispatch(db, ev)
  }

  /** Moving a task from `a` to `b`: as wired nobody hears of it, while
      reading the previous assignee before the save notifies both. */
  lemma WiredMissesReassignment(before: Db, id: TaskId, t: Task, a: UserId, b: UserId)
    requires id in before.tasks && before.tasks[id].assignee == Some(a)
    requires t.assignee == Some(b) && a != b
    ensures var db := before.(tasks := before.tasks[id := t]);
      var ev := MasterSignals.TaskSaved(id, t, false);
      && Dispatch(db, ev).notifications == db.notifications
      && |DispatchReadingBefore(before, db, ev).notifications| == |db.notifications| + 2
  {
    var db := before.(tasks := before.tasks[id := t]);
    var ev := MasterSignals.TaskSaved(id, t, false);
    WiredNotifiesOnlyOnCreate(db, ev);
    ReassignmentNotifiesBoth(id, t.title, a, b);
  }

  /** Events other than task saves are dispatched exactly as the
      `TooDoo-master` tree dispatches them. */
  lemma {:induction false} NonSavesDispatchAsMasterTree(db: Db, evs: seq<Event>)
    requires forall k :: 0 <= k < |evs| ==> !evs[k].TaskSaved?
    ensures DispatchAll(db, evs) == MasterSignals.DispatchAll(db, evs)
    decreases |evs|
  {
    if evs != [] {
      assert forall k :: 0 <= k < |evs[1..]| ==> evs[1..][k] == evs[k + 1];
      assert Dispatch(db, evs[0]) == MasterSignals.Dispatch(db, evs[0]);
      NonSavesDispatchAsMasterTree(Dispatch(db, evs[0]), evs[1..]);
    }
  }
}

=== FILE: text.dfy ===
/** Text helpers: ASCII case folding, substring search and decimal rendering,
    the pieces of Python string handling the model needs. */
module Text {
  import opened Wrappers


  /** Lower-case one ASCII letter; every other character is left alone. */
  function LowerChar(c: char): char
  {
    if 'A' <= c <= 'Z' then (c as int + 32) as char else c
  }

  function Lower(s: string): (r: string)
    ensures |r| == |s|
    ensures forall i :: 0 <= i < |s| ==> r[i] == LowerChar(s[i])
  {
    seq(|s|, i requires 0 <= i < |s| => LowerChar(s[i]))
  }

  /** Folding twice is folding once. */
  lemma LowerIdempotent(s: string)
    ensures Lower(Lower(s)) == Lower(s)
  {
  }

  /** Folding commutes with slicing. */
  lemma LowerSlice(s: string, i: int, j: int)
    requires 0 <= i <= j <= |s|
    ensures Lower(s)[i..j] == Lower(s[i..j])
  {
  }

  /** `p` occurs in `s` at position `i`. */
  predicate OccursAt(p: string, s: string, i: int)
  {
    0 <= i && i + |p| <= |s| && s[i..i + |p|] == p
  }

  /** `p` is a contiguous piece of `s` (Python's `p in s`). */
  predicate Contains(s: string, p: string)
  {
    exists i :: 0 <= i <= |s| - |p| && OccursAt(p, s, i)
  }

  /** Case-insensitive containment, the meaning of Django's `icontains`. */
  predicate ContainsIgnoreCase(s: string, p: string)
  {
    Contains(Lower(s), Lower(p))
  }

  /** An exact occurrence is also a case-insensitive one. */
  lemma ContainsImpliesIgnoreCase(s: string, p: string)
    requires Contains(s, p)
    ensures ContainsIgnoreCase(s, p)
  {
    var i :| 0 <= i <= |s| - |p| && OccursAt(p, s, i);
    LowerSlice(s, i, i + |p|);
    assert OccursAt(Lower(p), Lower(s), i);
  }

  /** Case-insensitive containment does not depend on the case of the pattern. */
  lemma IgnoreCaseOfFoldedPattern(s: string, p: string)
    ensures ContainsIgnoreCase(s, p) <==> ContainsIgnoreCase(s, Lower(p))
  {
    LowerIdempotent(p);
  }

  function DigitChar(d: int): char
    requires 0 <= d < 10
  {
    "0123456789"[d]
  }

  /** Decimal digits of a natural number, most significant first. */
  function NatToString(n: nat): (r: string)
    ensures |r| >= 1
    ensures forall i :: 0 <= i < |r| ==> '0' <= r[i] <= '9'
    decreases n
  {
    if n < 10 then [DigitChar(n)] else NatToString(n / 10) + [DigitChar(n % 10)]
  }

  /** Python's `"%d" % n`: a minus sign for negative numbers. */
  function IntToString(n: int): (r: string)
    ensures |r| >= 1
    ensures (r[0] == '-') <==> n < 0
  {
    if n < 0 then "-" + NatToString(-n) else NatToString(n)
  }

  /** Every character is a decimal digit. */
  predicate AllDigits(s: string)
  {
    forall i :: 0 <= i < |s| ==> '0' <= s[i] <= '9'
  }

  /** The number a string of decimal digits denotes. */
  function DigitsValue(s: string): nat
    requires AllDigits(s)
  {
    if s == [] then 0 else 10 * DigitsValue(s[..|s| - 1]) + (s[|s| - 1] as int - '0' as int)
  }

  /** Reading back an optional minus sign and digits. */
  function ParseInt(s: string): (r: Option<int>)
  {
    if |s| > 1 && s[0] == '-' && AllDigits(s[1..]) then
      var v: int := DigitsValue(s[1..]);
      Some(-v)
    else if |s| > 0 && AllDigits(s) then Some(DigitsValue(s))
    else None
  }

  /** Reading back the digits of a natural number gives the number. */
  lemma {:induction false} NatToStringRoundTrip(n: nat)
    ensures AllDigits(NatToString(n))
    ensures DigitsValue(NatToString(n)) == n
    decreases n
  {
    var r := NatToString(n);
    if n >= 10 {
      NatToStringRoundTrip(n / 10);
      assert r[..|r| - 1] == NatToString(n / 10);
    }
  }

  /** Digits read back as a number, with or without a minus sign. */
  lemma ParseDigits(digits: string)
    requires |digits| > 0 && AllDigits(digits)
    ensures ParseInt(digits) == Some(DigitsValue(digits))
    ensures ParseInt("-" + digits) == Some(-(DigitsValue(digits) as int))
  {
    assert digits[0] != '-';
    assert ("-" + digits)[1..] == digits;
  }

  /** `"%d" % n` read back is `n`: different numbers print differently. */
  lemma IntToStringRoundTrip(n: int)
    ensures ParseInt(IntToString(n)) == Some(n)
  {
    var m: nat := if n < 0 then -n else n;
    NatToStringRoundTrip(m);
    ParseDigits(NatToString(m));
  }
}

=== FILE: time_filters.dfy ===
/** The `short_timesince` template filter of the `TooDoo-master` tree
    (TooDoo-master/todo/todo_project/templatetags/time_filters.py): the time
    elapsed since a datetime, as one number and the largest unit that fits
    among seconds, minutes, hours and days. Elapsed time is whole seconds;
    a value that is not a datetime is `None`. */
module TimeFilters {
  import opened Wrappers
  import opened Models
  import Text

  datatype Unit = Sec | Min | Hr | DayUnit

  /** A reading: a number of whole units. */
  datatype Reading = Reading(amount: int, unit: Unit)

  const SecondsPerMinute: int := 60
  const SecondsPerHour: int := 3600

  function UnitSeconds(u: Unit): int
  {
    match u
    case Sec => 1
    case Min => SecondsPerMinute
    case Hr => SecondsPerHour
    case DayUnit => SecondsPerDay
  }

  function UnitSuffix(u: Unit): string
  {
    match u
    case Sec => " sec"
    case Min => " min"
    case Hr => " hr"
    case DayUnit => " day"
  }

  /** The bucket a difference of `seconds` falls in. The four buckets are
      consecutive ranges: below one minute (negative differences, from a
      datetime in the future, included), below one hour, below one day,
      and the rest. The number is the whole count of the bucket's unit,
      so a minute reading is 1..59, an hour reading 1..23, a day reading at
      least 1. */
  function Bucket(seconds: int): (r: Reading)
    ensures r.unit == Sec <==> seconds < SecondsPerMinute
    ensures r.unit == Min <==> SecondsPerMinute <= seconds < SecondsPerHour
    ensures r.unit == Hr <==> SecondsPerHour <= seconds < SecondsPerDay
    ensures r.unit == DayUnit <==> SecondsPerDay <= seconds
    ensures r.amount * UnitSeconds(r.unit) <= seconds < (r.amount + 1) * UnitSeconds(r.unit)
    ensures r.unit == Min ==> 1 <= r.amount <= 59
    ensures r.unit == Hr ==> 1 <= r.amount <= 23
    ensures r.unit == DayUnit ==> r.amount >= 1
  {
    if seconds < SecondsPerMinute then Reading(seconds, Sec)
    else if seconds < SecondsPerHour then Reading(seconds / SecondsPerMinute, Min)
    else if seconds < SecondsPerDay then Reading(seconds / SecondsPerHour, Hr)
    else Reading(seconds / SecondsPerDay, DayUnit)
  }

  /** `"%d unit" % amount`. */
  function Format(r: Reading): string
  {
    Text.IntToString(r.amount) + UnitSuffix(r.unit)
  }

  /** `short_timesince(value)` at the instant `now`. */
  function ShortTimesince(value: Option<Instant>, now: Instant): (s: string)
    ensures value.None? <==> s == ""
    ensures value.Some? ==> s == Format(Bucket(now - value.value))
  {
    if value.None? then "" else Format(Bucket(now - value.value))
  }

  /** The unit a suffix ends in: the four suffixes end in different
      letters. */
  function UnitEndingIn(c: char): (u: Option<Unit>)
    ensures u.Some? ==> UnitSuffix(u.value)[|UnitSuffix(u.value)| - 1] == c
  {
    if c == 'c' then Some(Sec)
    else if c == 'n' then Some(Min)
    else if c == 'r' then Some(Hr)
    else if c == 'y' then Some(DayUnit)
    else None
  }

  /** Reading a formatted reading back: the unit from the last letter,
      the number from what precedes that unit's suffix. */
  function ParseReading(s: string): (r: Option<Reading>)
  {
    if |s| < 4 then None
    else
      var unit := UnitEndingIn(s[|s| - 1]);
      if unit.None? then None
      else
        var n := |s| - |UnitSuffix(unit.value)|;
        if s[n..] != UnitSuffix(unit.value) then None
        else match Text.ParseInt(s[..n])
          case Some(amount) => Some(Reading(amount, unit.value))
          case None => None
  }

  /** The text names its reading uniquely: parsing it back gives the
      number and the unit it was made from. */
  lemma FormatRoundTrip(r: Reading)
    ensures ParseReading(Format(r)) == Some(r)
  {
    var digits := Text.IntToString(r.amount);
    var suffix := UnitSuffix(r.unit);
    var s := digits + suffix;
    assert UnitEndingIn(s[|s| - 1]) == Some(r.unit) by {
      assert s[|s| - 1] == suffix[|suffix| - 1];
    }
    var n := |s| - |suffix|;
    assert n == |digits|;
    assert s[n..] == suffix;
    assert s[..n] == digits;
    Text.IntToStringRoundTrip(r.amount);
  }

  /** So what the filter shows determines the bucket and its number. */
  lemma ShortTimesinceShowsItsReading(value: Instant, now: Instant)
    ensures ParseReading(ShortTimesince(Some(value), now)) == Some(Bucket(now - value))
  {
    var r := Bucket(now - value);
    FormatRoundTrip(r);
    assert ShortTimesince(Some(value), now) == Format(r);
  }

  /** A datetime in the future shows a negative number of seconds. */
  lemma FutureShowsNegativeSeconds(value: Instant, now: Instant)
    requires value > now
    ensures var s := ShortTimesince(Some(value), now);
      s[0] == '-' && ParseReading(s) == Some(Reading(now - value, Sec))
  {
    FormatRoundTrip(Bucket(now - value));
  }

  /** Later means a coarser or equal unit and, within a unit, a number no
      smaller. */
  lemma BucketMonotone(a: int, b: int)
    requires a <= b
    ensures UnitSeconds(Bucket(a).unit) <= UnitSeconds(Bucket(b).unit)
    ensures Bucket(a).unit == Bucket(b).unit ==> Bucket(a).amount <= Bucket(b).amount
  {
  }
}

=== FILE: views.dfy ===
/** The views of the `todo` tree (todo/todo_project/views.py) that do
    more than render: the dashboard counts, the filtered list pages, the
    `mark_completed` endpoint and the clear-completed action. Every write
    goes through the receivers of module Signals, as `post_save` and
    `post_delete` run them. The store writes themselves are the same in the
    `TooDoo-master` tree, which module MasterViews composes with its own
    receivers. */
module Views {
  import opened Wrappers
  import opened Models
  import Queries
  import MasterSignals
  import Signals

  // ---------------------------------------------------------------------
  // Dashboard and list pages

  /** `TaskCountsMixin`: every count is over the user's own tasks. */
  function DashboardCounts(db: Db, u: UserId, today: Day): (c: Queries.Counts)
    ensures c.all + c.completed == |Queries.OwnedIds(db.tasks, u)|
    ensures c.scheduled + c.overdue <= c.all
    ensures c.low + c.medium + c.high + c.urgent <= c.all
    ensures c.all == |set id | id in db.tasks && db.tasks[id].owner == u && !db.tasks[id].completed|
    ensures c.scheduled == |Queries.ScheduledOpenIds(db.tasks, u, Queries.OwnerOnly, today)|
    ensures c.overdue == |Queries.OverdueOpenIds(db.tasks, u, Queries.OwnerOnly, today)|
    ensures c.low == |Queries.PriorityOpenIds(db.tasks, u, Queries.OwnerOnly, "low")|
    ensures c.medium == |Queries.PriorityOpenIds(db.tasks, u, Queries.OwnerOnly, "medium")|
    ensures c.high == |Queries.PriorityOpenIds(db.tasks, u, Queries.OwnerOnly, "high")|
    ensures c.urgent == |Queries.PriorityOpenIds(db.tasks, u, Queries.OwnerOnly, "urgent")|
  {
    var c := Queries.TaskCounts(db.tasks, u, Queries.OwnerOnly, today);
    assert Queries.OpenIds(db.tasks, u, Queries.OwnerOnly)
      == set id | id in db.tasks && db.tasks[id].owner == u && !db.tasks[id].completed;
    c
  }

  /** The by-category page: the user's tasks filed under `c`, shown only
      when `c` is one of the user's categories (404 otherwise). */
  function TasksByCategory(db: Db, u: UserId, c: CategoryId): (p: Queries.Page<set<TaskId>>)
    ensures p.Found? <==> c in db.categories && db.categories[c].user == u
    ensures p.Found? ==> forall id :: id in p.items <==>
      id in db.tasks && db.tasks[id].owner == u && db.tasks[id].category == Some(c)
  {
    var items := Queries.InCategory(db.tasks, Queries.OwnedIds(db.tasks, u), c);
    if c in db.categories && db.categories[c].user == u then Queries.Found(items) else Queries.NotFound
  }

  // ---------------------------------------------------------------------
  // mark_completed

  /** The JSON object `mark_completed` answers with. */
  datatype Reply = Success | Failure(error: string)

  datatype Outcome = Outcome(reply: Reply, db: Db)

  const TaskNotFound: string := "Task not found"
  const InvalidRequest: string := "Invalid request"

  /** The store with task `id` replaced by `t`. */
  function WithTask(db: Db, id: TaskId, t: Task): (r: Db)
    ensures r.tasks == db.tasks[id := t]
    ensures r.users == db.users && r.categories == db.categories && r.comments == db.comments
    ensures r.log == db.log && r.notifications == db.notifications
    ensures r.conversations == db.conversations && r.messages == db.messages && r.nextId == db.nextId
  {
    Db(db.users, db.categories, db.tasks[id := t], db.comments, db.log, db.notifications,
       db.conversations, db.messages, db.nextId)
  }

  /** The row `mark_completed` saves: the task as fetched, with the flag
      set from the request. */
  function SetCompleted(t: Task, completed: bool): (r: Task)
    ensures r.completed == completed
    ensures r.(completed := t.completed) == t
  {
    t.(completed := completed)
  }

  /** How `mark_completed` answers a request: only a POST naming an existing
      task succeeds. No ownership check is made. */
  function MarkCompletedReply(db: Db, isPost: bool, taskId: Option<TaskId>): (reply: Reply)
    ensures reply == Success <==> isPost && taskId.Some? && taskId.value in db.tasks
    ensures !isPost ==> reply == Failure(InvalidRequest)
    ensures isPost && (taskId.None? || taskId.value !in db.tasks) ==> reply == Failure(TaskNotFound)
  {
    if !isPost then Failure(InvalidRequest)
    else if taskId.None? || taskId.value !in db.tasks then Failure(TaskNotFound)
    else Success
  }

  /** `mark_completed`: a POST naming an existing task sets that task's
      flag, saves it (one log entry; as wired, no notification) and
      succeeds; any other request changes nothing. */
  function MarkCompleted(db: Db, isPost: bool, taskId: Option<TaskId>, completed: bool): (r: Outcome)
    ensures r.reply == MarkCompletedReply(db, isPost, taskId)
    ensures r.reply != Success ==> r.db == db
    ensures r.reply == Success ==>
      && r.db.tasks.Keys == db.tasks.Keys
      && r.db.tasks[taskId.value] == SetCompleted(db.tasks[taskId.value], completed)
      && (forall id :: id in db.tasks && id != taskId.value ==> r.db.tasks[id] == db.tasks[id])
      && |r.db.log| == |db.log| + 1 && r.db.log[..|db.log|] == db.log
      && r.db.log[|db.log|].action == (if completed then TaskComplete else TaskUpdate)
      && r.db.log[|db.log|].objectId == taskId.value
      && r.db.log[|db.log|].user == db.tasks[taskId.value].owner
      && r.db.notifications == db.notifications
      && r.db.(tasks := db.tasks, log := db.log) == db
  {
    var reply := MarkCompletedReply(db, isPost, taskId);
    if reply != Success then Outcome(reply, db)
    else
      var id := taskId.value;
      var t := SetCompleted(db.tasks[id], completed);
      var written := WithTask(db, id, t);
      var ev := MasterSignals.TaskSaved(id, t, false);
      Signals.WiredNotifiesOnlyOnCreate(written, ev);
      Outcome(Success, Signals.Dispatch(written, ev))
  }

  /** Marking a task with the flag it had before, after any mark, gives
      back the task table it started from. */
  lemma MarkCompletedUndo(db: Db, id: TaskId, completed: bool)
    requires id in db.tasks
    ensures var once := MarkCompleted(db, true, Some(id), completed).db;
      MarkCompleted(once, true, Some(id), db.tasks[id].completed).db.tasks == db.tasks
  {
    var once := MarkCompleted(db, true, Some(id), completed).db;
    var twice := MarkCompleted(once, true, Some(id), db.tasks[id].completed).db;
    assert twice.tasks[id] == db.tasks[id];
  }

  // ---------------------------------------------------------------------
  // Clear completed

  /** The tasks `Task.objects.filter(completed=True)` selects: every
      user's. */
  function CompletedTaskIds(tasks: map<TaskId, Task>): set<TaskId>
  {
    set id | id in tasks && tasks[id].completed
  }

  /** `order` lists each id of `ids` exactly once: the order in which the
      deletion sends `post_delete`, which the command does not fix. */
  ghost predicate Enumerates(order: seq<TaskId>, ids: set<TaskId>)
  {
    && (forall i, j :: 0 <= i < j < |order| ==> order[i] != order[j])
    && (forall i :: 0 <= i < |order| ==> order[i] in ids)
    && (forall id :: id in ids ==> id in order)
  }

  /** The `post_delete` events of the deleted rows, as they were. */
  function DeleteEvents(tasks: map<TaskId, Task>, order: seq<TaskId>): (evs: seq<Signals.Event>)
    requires forall i :: 0 <= i < |order| ==> order[i] in tasks
    ensures |evs| == |order|
    ensures forall k :: 0 <= k < |order| ==> evs[k] == MasterSignals.TaskDeleted(order[k], tasks[order[k]])
  {
    seq(|order|, k requires 0 <= k < |order| => MasterSignals.TaskDeleted(order[k], tasks[order[k]]))
  }

  /** `r` is `db` after deleting every completed task, apart from the log:
      exactly the open tasks stay, changed only in a parent link, which is
      kept iff the parent stays; exactly the comments on open tasks stay,
      unchanged; the notifications lose their links to deleted tasks; the
      other tables are untouched. */
  ghost predicate CompletedCleared(db: Db, r: Db)
  {
    && (forall id :: id in r.tasks <==> id in db.tasks && !db.tasks[id].completed)
    && (forall id :: id in r.tasks ==> r.tasks[id].(parentTask := db.tasks[id].parentTask) == db.tasks[id])
    && (forall id :: id in r.tasks && db.tasks[id].parentTask.Some? ==>
          (r.tasks[id].parentTask == db.tasks[id].parentTask <==>
           db.tasks[id].parentTask.value !in CompletedTaskIds(db.tasks)))
    && (forall c :: c in r.comments <==> c in db.comments && db.comments[c].post !in CompletedTaskIds(db.tasks))
    && (forall c :: c in r.comments ==> r.comments[c] == db.comments[c])
    && r.notifications == DetachNotifications(db.notifications, CompletedTaskIds(db.tasks))
    && r.(tasks := db.tasks, comments := db.comments, notifications := db.notifications, log := db.log) == db
  }

  /** Appending to the log keeps a store cleared. */
  lemma ClearedWithLog(db: Db, gone: Db, r: Db)
    requires CompletedCleared(db, gone) && r.(log := gone.log) == gone
    ensures CompletedCleared(db, r)
  {
  }

  /** The delete itself: completed tasks go with their comments; the
      tasks and notifications pointing at them lose the link. */
  function DeleteCompleted(db: Db): (r: Db)
    ensures CompletedCleared(db, r)
    ensures r.log == db.log
  {
    DeleteTasks(db, CompletedTaskIds(db.tasks))
  }

  /** `ClearCompletedTasksView.post`: every completed task of every user
      is deleted, every open task stays, and each deletion logs a
      `task_delete` entry carrying the deleted task's id. */
  function ClearCompleted(db: Db, order: seq<TaskId>): (r: Db)
    requires Enumerates(order, CompletedTaskIds(db.tasks))
    ensures CompletedCleared(db, r)
    ensures |r.log| == |db.log| + |order| == |db.log| + |CompletedTaskIds(db.tasks)|
    ensures r.log[..|db.log|] == db.log
    ensures forall j :: |db.log| <= j < |r.log| ==>
      && r.log[j].action == TaskDelete && r.log[j].objectId == order[j - |db.log|]
      && r.log[j].user == db.tasks[order[j - |db.log|]].owner
  {
    var gone := DeleteCompleted(db);
    var evs := DeleteEvents(db.tasks, order);
    var r := Signals.DispatchAll(gone, evs);
    Signals.NoCreatesNoNotices(evs);
    ClearedWithLog(db, gone, r);
    EnumerationCard(order, CompletedTaskIds(db.tasks));
    forall j | |db.log| <= j < |r.log|
      ensures && r.log[j].action == TaskDelete && r.log[j].objectId == order[j - |db.log|]
              && r.log[j].user == db.tasks[order[j - |db.log|]].owner
    {
      var k := j - |db.log|;
      assert r.log[|db.log| + k] == MasterSignals.EntryFor(evs[k]);
    }
    r
  }

  /** With no completed task, clearing changes nothing at all. */
  lemma ClearWithNothingCompleted(db: Db)
    requires CompletedTaskIds(db.tasks) == {}
    ensures Enumerates([], CompletedTaskIds(db.tasks))
    ensures ClearCompleted(db, []) == db
  {
    var gone := DeleteCompleted(db);
    forall id | id in db.tasks ensures DetachTask(db.tasks[id], {}, {}) == db.tasks[id] {
    }
    assert gone.tasks == db.tasks;
    assert gone.comments == db.comments;
    assert gone.notifications == db.notifications;
    assert gone == db;
  }

  /** Clearing twice clears once: afterwards no task is completed, so a
      second clear leaves the store as the first one left it. */
  lemma ClearCompletedTwice(db: Db, order: seq<TaskId>)
    requires Enumerates(order, CompletedTaskIds(db.tasks))
    ensures Enumerates([], CompletedTaskIds(ClearCompleted(db, order).tasks))
    ensures ClearCompleted(ClearCompleted(db, order), []) == ClearCompleted(db, order)
  {
    var once := ClearCompleted(db, order);
    assert CompletedTaskIds(once.tasks) == {} by {
      forall id | id in once.tasks ensures !once.tasks[id].completed {
        assert once.tasks[id].completed == db.tasks[id].completed;
      }
    }
    ClearWithNothingCompleted(once);
  }

  /** An enumeration has one entry per element. */
  lemma {:induction false} EnumerationCard(order: seq<TaskId>, ids: set<TaskId>)
    requires Enumerates(order, ids)
    ensures |order| == |ids|
    decreases |order|
  {
    if order != [] {
      var rest := order[1..];
      assert Enumerates(rest, ids - {order[0]}) by {
        forall id | id in ids - {order[0]} ensures id in rest {
          var i :| 0 <= i < |order| && order[i] == id;
          assert i != 0;
          assert rest[i - 1] == id;
        }
      }
      EnumerationCard(rest, ids - {order[0]});
    } else {
      assert forall id :: id !in ids;
    }
  }
}

=== FILE: wrappers.dfy ===
/** Optional values and success/failure results, used wherever the source
    has a nullable field, a missing row or an error response. */
module Wrappers {

  datatype Option<+T> = None | Some(value: T)

  datatype Result<+T, +E> = Ok(value: T) | Err(error: E)
}
